=== FILE: README.md ===
# Course templates block: a Dafny model

This project models the logic of the Moodle block `block_course_template`.
The block saves a course as a template: a backup archive plus a row in
`block_course_template`, which can carry tags. From a template a user can
create a new course, or import the template into an existing course.

The host LMS provides the database, the file store, the forms and the
backup/restore engine. Here the tables are immutable maps held in a `Site`
record. The restore engine is a function the request is given. The backup
engine is opaque: the model records which course it was asked to back up,
with which settings.

The modules follow the three source files:

- `Strings` (strings.dfy): the PHP string behaviour the block depends on.
  - Decimal interpolation of integers, with its inverse.
  - `implode` and `explode`, with `explode` undoing `implode`.
  - `empty()` on strings, under which "0" is also empty.
  - The `(int)` cast of a URL argument.
- `Tables` (tables.dfy): the rows the block reads and writes, and the file
  store keyed by pathname.
- `TagStore` (tag_store.dfy): template deletion and the tag clean-up in
  lib.php.
- `Archive` (archive.dfy): the rest of lib.php.
  - The archive's file name and its parse-back.
  - The file-area addresses served by `pluginfile`.
  - The fixed backup configuration and how it is applied to a backup plan.
  - The rule deciding where the finished archive is kept.
- `Materialize` (materialize.dfy): the request in newcourse.php, from the
  submitted form to the final patches.
  - Mode selection.
  - The archive, built on first use.
  - The restore address and the restore target.
  - The plan overrides.
  - The id-number, summary, enrolment and custom-field updates.
- `CourseForm` (course_form.php's form, in course_form.dfy): which elements
  the form shows in each mode, and its short-name validation.

Some behaviour of the code is modelled as the code does it, not as a reader
might expect:

- **Tag clean-up.** A tag is deleted when its row in the grouped COUNT query
  is exactly 1. That query pairs each passed instance of a tag with every
  instance of the tag, so the count is (passed instances) × (all instances).
  The count is 1 exactly when the tag has one instance in all. As a result,
  a tag whose two instances are both deleted in one call survives with no
  instance (`TagStore.OrphanTagExample`). Starting from a site with no
  orphan tag, and when the tag delete succeeds, deleting a template leaves
  no tag without an instance if each template links a tag at most once
  (`TagStore.DeleteTemplateKeepsNoOrphans`). A failed tag delete does
  leave tags without instances.
- **Course created before extraction.** A new course is created
  (newcourse.php:134) before the archive is extracted (newcourse.php:154).
  A failed extraction therefore leaves the bare course behind
  (`Materialize.ExtractionFailureLeavesNewCourse`): nothing removes it.
- **Short-name validation never fires.** Validation checks short names only
  when the submitted data has a `courseid` key. The form has no such field:
  the target course travels as `c`. So for the form's own submissions,
  validation returns the parent's errors unchanged
  (`CourseForm.ValidationKeepsParentErrors`).

Modelling conventions:

- **Host calls that can fail** are boolean fields of an environment record
  (`Archive.ArchiveEnv`, `Materialize.RequestEnv`):
  - the backup engine raising;
  - the destination directory being usable;
  - the file copies;
  - extraction;
  - the restore engine raising.

  The id that `restore_dbops::create_new_course` assigns is also a field of
  the environment. The lemmas about new courses assume this id is unused.
- **Request steps that stop the request** become `Failure` results carrying
  a `RequestError`:
  - `print_error`;
  - `totara_set_notification` with a redirect;
  - a fatal call on `false`.

  The tables at that point are kept: changes made before the failure stay.
- **Missing course.** If the template's course no longer exists,
  `create_archive` cannot read the course id. This is modelled as the error
  `CourseMissing`.
- **No archive copy.** `create_archive` may return `false`: the
  destination is unusable, the storage mode is 0, or the copy fails. In
  that case newcourse.php calls `get_filename()` on `false`; this is
  modelled as the error `NoArchiveCopy`.

## Model

| member | source | states |
|---|---|---|
| TagStore.TagsToDeleteMeaning | lib.php:70-82 | A tag's COUNT row is exactly 1 iff the tag exists, some passed instance points at it, and it has exactly one instance in all. |
| TagStore.DeleteTagInstances | lib.php:66-96 | The passed instances are removed and all other instances are unchanged. A failed instance delete returns false and attempts no tag delete. Removed tags are exactly the linked ones with one instance in total. Unlinked tags are untouched. The call succeeds iff both deletes succeed (or there is nothing to delete). |
| TagStore.TagWithSeveralInstancesSurvives | lib.php:70-93 | When the instance delete succeeds, a tag with two or more instances, all of them passed, survives with no instance left. |
| TagStore.OrphanTagExample | lib.php:70-93 | Concrete case: tag 7 with instances 1 and 2, both deleted, stays in the tag table with no instance. |
| TagStore.DeleteTagInstancesKeepsNoOrphans | lib.php:66-96 | If no tag has two of its instances among the passed ids, a successful clean-up keeps every tag with at least one instance. |
| TagStore.DeleteTemplate | lib.php:40-57 | Instance clean-up runs only when the template has instances, and first. A failed clean-up stops the call before the template row is deleted; otherwise deleting the row is the last write. Once the row delete is sent, no instance of the template remains and every other instance is unchanged, and the removed tags are exactly the linked ones with one instance in total. The call succeeds iff the clean-up (if any) and the row delete succeed. Only the template, tag-instance and tag tables change; courses, files, enrolments and custom-field data are untouched. A failed clean-up returns exactly what the instance clean-up returned, so a failed instance delete leaves every instance in place. Success removes the template; failure keeps the template table. |
| TagStore.DeleteTemplateKeepsNoOrphans | lib.php:40-57 | Starting from a site with no orphan tag, and when the tag delete succeeds, deleting a template leaves no tag without instances, provided no template links a tag twice. |
| Strings.StringToNatOfNatToString | lib.php:207-212 | Reading back the decimal rendering of a natural number gives that number. |
| Strings.IntCastOfNatToString | lib.php:134 | The `(int)` cast of a rendered natural number is the number. |
| Strings.SplitJoin | course_form.php:145 | `explode` undoes `implode` when no piece contains the separator. |
| Archive.ParseArchiveFilenameRoundTrip | lib.php:207-212 | The name `coursetemplate_<template>_<course>_<time>.mbz` parses back to the same three numbers. |
| Archive.ArchiveFilenameInjective | lib.php:207-212 | Distinct (template, course, time) triples give distinct archive names. |
| Archive.Pluginfile | lib.php:124-147 | Only `screenshot` and `backupfile` are served, and only for an existing template id taken from the first argument. The served file is the non-directory file stored at `/<context>/block_course_template/<area>/<id>/<rest joined by "/">`. A request is refused iff that file is missing or is a directory. |
| Archive.PluginfileServesStoredFile | lib.php:124-147 | A file stored by the block for an existing template is served back when requested by the template id and the file name. |
| Archive.ApplySettings | lib.php:169-184 | Only settings the plan offers are changed, each to the configured value of its key. All other settings, and the plan's set of settings, are unchanged. |
| Archive.TemplateBackupSettings | lib.php:169-184 | With the fixed configuration, users, role assignments, comments, completion information, logs and histories are set to 0, and activities, blocks and filters to 1, wherever the plan offers them. |
| Archive.TemplateConfigStorage | lib.php:281-293 | The fixed configuration has storage mode 1 and destination `<dataroot>/temp/backup/`. |
| Archive.DecideStorage | lib.php:199-233 | A copy is made iff the destination is usable and the storage mode is not 0. The original is deleted iff the destination is usable, the mode is 1 and the copy came back. |
| Archive.TemplateArchiveFile | lib.php:207-228 | The kept copy is named after the template, course and creation time. It is stored at the template's `backupfile` item address. |
| Archive.CreateArchiveWith | lib.php:159-244 | A missing course or an engine exception fails the call. Otherwise the engine backs up the template's course with the applied settings. The copy and the deletion follow the storage rule, and the copy is returned iff it was made. |
| Archive.CreateArchive | lib.php:159-244 | As above, with the block's fixed configuration applied to the plan's settings. |
| Archive.CreateArchiveSettings | lib.php:169-184 | Wherever the plan offers them, a successful archive backs the course up without user data and the like, and with its activities, blocks and filters. A setting the plan does not offer is left as the plan has it. |
| Archive.CreateArchiveMovesArchive | lib.php:199-233 | With the fixed configuration, a copy is kept iff the destination is usable and the copy succeeds. The original is deleted iff that copy exists, and the copy carries the deterministic name. |
| Materialize.SelectMode | newcourse.php:42-57 | Course id 0 gives new-course mode iff the user may create courses in some category, and otherwise fails. Id 1 (the site course) is refused. Any other id imports into that course, and fails if the course does not exist. |
| Materialize.RestoreTargetByMode | newcourse.php:167 | The restore target is "new course" iff not inserting, and "existing, adding" iff importing. |
| Materialize.EnsureArchive | newcourse.php:104-116 | A template that already has a file name is used as it is. Otherwise a successful build stores the copy under its own path, adds no other file, and saves the new, non-empty name on the template row. A failed build changes none of the block's rows or files. |
| Materialize.EnsureArchiveBuilds | newcourse.php:104-121 | An archive is built iff the course exists, the engine succeeds, the destination is usable and the copy is made. It then has the deterministic name and is stored at the restore address. |
| Materialize.EnsureArchiveIdempotent | newcourse.php:104-116 | Once a request has the archive, a second request neither rebuilds it nor changes the tables. |
| Materialize.BuiltArchiveIsServed | newcourse.php:104-121 | The archive built by the first request is the file `pluginfile` serves for that template and file name. |
| Materialize.SubstituteOverrides | newcourse.php:178-205 | Only in new-course mode and only in non-root tasks, the four course settings take the submitted full name, short name, id number and start date. Every other setting, every task's shape, and (in import mode) the whole plan are unchanged. |
| Materialize.SubstituteOverridesIdempotent | newcourse.php:178-205 | Applying the overrides twice gives the same plan as applying them once. |
| Materialize.CopiedEnrolments | newcourse.php:234-242 | Each copied enrolment instance has the source instance's fields without `id`, one copy per source instance. |
| Materialize.CopiedEnrolmentsDropOnlyId | newcourse.php:236-238 | Putting the `id` back into a copy gives the source instance. |
| Materialize.AddEnrolments | newcourse.php:233-242 | The target course keeps its own instances and gains the copies after them. Other courses are unchanged. |
| Materialize.ReplaceHeading | newcourse.php:254-264 | After the update, the course's only custom-field row is the heading, and other courses' rows are unchanged. |
| Materialize.ApplyRestore | newcourse.php:169-217 | The restore engine's writes land on the target course only: its record, its custom-field rows appended after its own, and its enrolment instances added after its own. Other courses' rows and instances are unchanged. |
| Materialize.PatchCourse | newcourse.php:219-251 | A new course takes the submitted id number. A non-empty submitted summary replaces the summary. No other column changes. |
| Materialize.Stage | newcourse.php:97-131 | Staging changes only the file store and the template table: either nothing changes, or the submitted template had no archive and gets the built one's name while that one file is added. No failure it reports is an extraction, directory or restore failure. It succeeds only when the mode check passes and the archive copy is made, and always fails when there are no templates. A success leaves the submitted template with a non-empty archive name and its archive at the restore address; an import then names an existing course. |
| Materialize.Prepare | newcourse.php:133-165 | In new-course mode the course record is inserted under the host's id before extraction. Preparation succeeds iff staging, extraction and the directory check all succeed. |
| Materialize.Restore | newcourse.php:167-217 | The restore targets a new course iff not importing, with the plan's overrides applied only for a new course. A success applies what the engine wrote for the course record it was given. A restore that raises fails the request and keeps what the engine had already written. Either way only the target course's record, rows and enrolment instances change. |
| Materialize.Finish | newcourse.php:219-264 | The course record is patched, the template course's enrolment instances are copied, and with `setchannel` the heading becomes the course's only custom-field row; every table other than courses, enrolments and custom-field data is unchanged, and so are other courses' rows. Without `setchannel` the rows stay as they were. |
| Materialize.Materialize | newcourse.php:97-273 | Tags and tag instances are never changed; templates other than the submitted one are unchanged; the file store gains at most the submitted template's archive. A successful request leaves the template with its archive name set and the target course present, and every other course's record and enrolment instances unchanged. A request that fails before the restore leaves enrolments and custom-field data unchanged. A failed restore may leave partial writes, but only in the target course: other courses' rows and enrolment instances are unchanged. |
| Materialize.MaterializeNewCourse | newcourse.php:133-225 | A new-course request restores into a course that did not exist before, as a new course, starting from the bare created record. The plan carries the submitted fields, and the course ends up with the submitted id number whatever the restore wrote. |
| Materialize.MaterializeImport | newcourse.php:167-225 | An import restores into the named course, adding to it, with the plan exactly as the engine built it. No course is created, and the course keeps the id number the restore wrote. |
| Materialize.MaterializeSummaryAndHeading | newcourse.php:244-264 | A non-empty submitted summary replaces the one the restore wrote; otherwise the restored summary stays. With `setchannel` submitted, the heading is the course's only custom-field row, whatever rows the restore copied. Without it, the rows are those before the request followed by the ones the restore wrote. Other courses' rows are never touched. |
| Materialize.MaterializeCopiesEnrolments | newcourse.php:233-242 | The target course's enrolments are its own, then the ones the restore added, then an `id`-less copy of each instance the template's course has after the restore. |
| Materialize.ExtractionFailureLeavesNewCourse | newcourse.php:133-160 | A failed extraction fails the request. In new-course mode it leaves the freshly created course behind; an import leaves the courses untouched. |
| CourseForm.TemplateOptions | course_form.php:55-70 | The template options are exactly the templates whose course still exists, each labelled with its name. |
| CourseForm.Definition | course_form.php:36-132 | The form starts with the header and the template select, contains the referer and ends with the buttons. The button is labelled "create course" iff course id is 0, otherwise "import". The template default is set iff a template was passed. Full name and short name are required only for a new course. |
| CourseForm.DefinitionKeepsTemplate | course_form.php:71-75 | The hidden `t` field is present iff a template was passed. |
| CourseForm.DefinitionCourseFields | course_form.php:77-120 | The category select and the full-name, short-name, id-number, summary and start-date fields are each present iff course id is 0. |
| CourseForm.DefinitionImportField | course_form.php:77-125 | The hidden `c` field with the course id is present iff course id is not 0. In that case it is the only course element on the form: no editor, text field, date selector, category select or other hidden field. |
| CourseForm.DefinitionChannelFields | course_form.php:78-86 | The channel heading editor and the hidden `setchannel` flag are present iff course id is 0 and `setchannel` is set. |
| CourseForm.CoursesWithShortname | course_form.php:140 | The matched courses are exactly the courses with the given short name. |
| CourseForm.CoursesWithShortnameAppend | course_form.php:140 | The matches keep table order: those of a concatenation are the first part's matches followed by the second part's. |
| CourseForm.CoursesWithShortnameCounts | course_form.php:140 | Each course with the short name is matched as many times as the table holds it, and no other course is matched. |
| CourseForm.Validation | course_form.php:134-152 | All parent errors other than `shortname` are kept, and only a `shortname` entry can be added or replaced. That entry is added only when `courseid` is submitted and some course has the short name. The message joins the matching full names with ",". |
| CourseForm.ShortnameMessageListsCourses | course_form.php:140-146 | When no full name contains a comma, splitting the message at "," lists exactly the matching courses' full names, in table order. |
| CourseForm.ValidationKeepsParentErrors | course_form.php:121-139 | No form field is named `courseid`, so validating the form's own submissions returns the parent's errors unchanged. |

## Left out

- edit_template_form.php is not part of this model: it defines a form and has no logic beyond one label choice.
- Backup and restore engine internals are opaque:
  - plan execution, precheck, conversion and the archive format (lib.php:165-196, newcourse.php:169-215);
  - the engine's own default file name (lib.php:186-192);
  - the restore engine's effect on the course, which is a function parameter.
- File I/O is left out: packing, extraction into a temporary directory, `fulldelete`, `copy_content_to` and `send_stored_file`. The file store is a map from pathname to file record. Extraction, the directory check and the temporary copy are booleans of the request environment.
- The file store's sha1 hashing of pathnames is not modelled: files are keyed by the pathname itself, which stands for its hash, assuming the hash is injective.
- SQL text and the database layer are not modelled: tables are maps, and the COUNT query is modelled by what it computes.
- Audience-visibility cohort copying (newcourse.php:135-148) and search classification (newcourse.php:266-269) are calls into host code not visible here.
- Page set-up, headings, notifications, redirects, capability checks, `require_login`, `require_sesskey`, form cancellation and `block_course_template_generate_file_location` are left out: they depend on host globals and make no decision of the block's own.
- The `hardFreeze` branches of the form (course_form.php:94-97, 103-106, 111-114) are left out: they test a `$course` variable that the form's custom data never defines, so they never run.
- Two requests building the first archive of one template at the same time are not modelled: the block has no concurrency logic of its own.
- Strings.IntCast: models PHP's `(int)` only for unsigned decimal digits; a sign, leading white space and other numeric forms are not modelled.
- Archive.StorageMode: a text `backup_auto_storage` value goes through the same `(int)` simplification, so a signed or space-led value reads as 0.
- Archive.ApplySettings: the plan map holds only the values the block sets. The host's `set_value` also passes a new value on to settings that depend on it (turning off `users` turns off each activity's user data); that propagation is not modelled.
- Archive.CreateArchiveSettings: whether the host's plan offers each of the block's setting names is a property of the host. A name it does not offer (the block's `completion_information` and `histories` may be spelt differently there) is skipped, and the model then promises nothing about it.
- Materialize.EnsureArchive: the backup engine's own stored copy of the archive is not modelled. The block deletes it only after copying it, so a build that fails after the engine ran, for example because the destination is unusable, leaves that copy in the host's file store.
- Archive.Pluginfile: because of the `(int)` simplification above, a first argument with leading white space or a `+` sign (PHP reads `" 5"` as 5) names item 0 in the model, so the model refuses some requests the code serves.
- CourseForm.TemplateOptions: states the option set and labels but not their display order (by template name), because a map carries no order.
- TagStore.DeleteTagInstances: assumes the database driver labels the unaliased `COUNT(ins.id)` column `count`, as PostgreSQL does, since the code reads `$n->count` (lib.php:80). On MySQL the column is labelled `COUNT(ins.id)`, `$n->count` is null, and no tag would ever be deleted; that driver is not modelled.
- TagStore.DeleteTagInstances: requires a non-empty id set. With no ids, the query's `IN ()` list is malformed SQL; the only caller guards against this (lib.php:46).
- Materialize.AddEnrolments: the enrolment map records the field maps the block passes to `add_instance`, not the rows the host then stores. The host sets the stored row's `courseid` to the target, gives it a new `id` and a new `sortorder`; those column resets are host code and are not modelled.
- Materialize.ApplyRestore: the restore engine is a function of the target, the plan and the course record, and so is what it has written when it raises (`partialRestore`). What it writes is limited to the target course's record, custom-field rows and enrolment instances; its other effects (sections, activities, files) are not modelled.
- Materialize.MaterializeNewCourse: assumes the host returns a course id not already in use, because the id comes from the host database.
- Materialize.Materialize: the form's own validation (`get_data`) is not re-checked inside the request; `CourseForm.Validation` models it separately.

=== FILE: archive.dfy ===
/** The archive side of lib.php: the archive's file name, the file-area
    addresses the block serves, the fixed backup configuration and how it
    is pushed onto a backup plan, and where the finished archive is kept
    (`course_template_create_archive`, `block_course_template_get_settings`,
    `block_course_template_pluginfile`). The backup engine itself is opaque:
    the model records what it was asked to do. */
module Archive {
  import opened Wrappers
  import opened Strings
  import opened Tables

  const Component := "block_course_template"
  const FilenamePrefix := "coursetemplate_"
  const FilenameExtension := ".mbz"

  /** The file areas `pluginfile` agrees to serve. */
  const FileAreas: set<string> := {"screenshot", "backupfile"}

  // ---------------------------------------------------------------------
  // Archive file name
  // ---------------------------------------------------------------------

  /** `coursetemplate_<templateid>_<courseid>_<timecreated>.mbz`. */
  function ArchiveFilename(templateId: nat, courseId: nat, timecreated: nat): string {
    FilenamePrefix + NatToString(templateId) + "_" + NatToString(courseId) + "_"
      + NatToString(timecreated) + FilenameExtension
  }

  predicate IsNumeral(s: string) {
    s != [] && AllDigits(s)
  }

  /** Reads an archive file name back into its three numbers. */
  function ParseArchiveFilename(name: string): Option<(nat, nat, nat)> {
    var lo := |FilenamePrefix|;
    if |name| < lo + |FilenameExtension| then None
    else
      var hi := |name| - |FilenameExtension|;
      if name[..lo] != FilenamePrefix || name[hi..] != FilenameExtension then None
      else
        var fields := Split(name[lo..hi], '_');
        if |fields| == 3 && IsNumeral(fields[0]) && IsNumeral(fields[1]) && IsNumeral(fields[2])
        then Some((StringToNat(fields[0]), StringToNat(fields[1]), StringToNat(fields[2])))
        else None
  }

  /** Cutting a three-part string at the boundaries of its parts. */
  lemma SliceThree(p: string, m: string, e: string)
    ensures var n := p + m + e;
      && n[..|p|] == p
      && n[|n| - |e|..] == e
      && n[|p|..|n| - |e|] == m
  {
  }

  /** The middle of an archive name splits back into its three numerals. */
  lemma SplitNumerals(a: string, b: string, c: string)
    requires AllDigits(a) && AllDigits(b) && AllDigits(c)
    ensures Split(a + "_" + b + "_" + c, '_') == [a, b, c]
  {
    DigitsExclude(a, '_');
    DigitsExclude(b, '_');
    DigitsExclude(c, '_');
    assert a + "_" + b + "_" + c == a + ['_'] + (b + ['_'] + c);
    SplitAfterPiece(a, b + ['_'] + c, '_');
    SplitAfterPiece(b, c, '_');
    SplitNoSeparator(c, '_');
  }

  lemma ParseArchiveFilenameRoundTrip(templateId: nat, courseId: nat, timecreated: nat)
    ensures ParseArchiveFilename(ArchiveFilename(templateId, courseId, timecreated))
      == Some((templateId, courseId, timecreated))
  {
    var a, b, c := NatToString(templateId), NatToString(courseId), NatToString(timecreated);
    var middle := a + "_" + b + "_" + c;
    var name := ArchiveFilename(templateId, courseId, timecreated);
    assert name == FilenamePrefix + middle + FilenameExtension;
    SliceThree(FilenamePrefix, middle, FilenameExtension);
    SplitNumerals(a, b, c);
    StringToNatOfNatToString(templateId);
    StringToNatOfNatToString(courseId);
    StringToNatOfNatToString(timecreated);
  }

  /** Distinct (template, course, time) triples give distinct archive names. */
  lemma ArchiveFilenameInjective(t1: nat, c1: nat, d1: nat, t2: nat, c2: nat, d2: nat)
    requires ArchiveFilename(t1, c1, d1) == ArchiveFilename(t2, c2, d2)
    ensures t1 == t2 && c1 == c2 && d1 == d2
  {
    ParseArchiveFilenameRoundTrip(t1, c1, d1);
    ParseArchiveFilenameRoundTrip(t2, c2, d2);
  }

  // ---------------------------------------------------------------------
  // File-area addresses and pluginfile
  // ---------------------------------------------------------------------

  /** `"/<context>/block_course_template/<area>/<item>/<relative path>"`. */
  function ItemPath(contextId: nat, area: string, itemId: nat, relativePath: string): string {
    "/" + NatToString(contextId) + "/" + Component + "/" + area + "/"
      + NatToString(itemId) + "/" + relativePath
  }

  /** A file kept by this block under the root folder of one item lies at
      the item path of its name. */
  lemma StoredPathIsItemPath(f: StoredFile)
    requires f.component == Component && f.filepath == "/"
    ensures StoredPath(f) == ItemPath(f.contextId, f.area, f.itemId, f.filename)
  {
  }

  datatype Served = NotServed | Sent(file: StoredFile)

  /** The item id `pluginfile` reads from its first argument (`(int)` of
      `array_shift`, which yields 0 when there is no argument). */
  function RequestedItem(args: seq<string>): nat {
    if args == [] then 0 else IntCast(args[0])
  }

  /** The arguments after the first, joined by "/". */
  function RequestedRelativePath(args: seq<string>): string {
    if args == [] then "" else Join(args[1..], '/')
  }

  /** `block_course_template_pluginfile`: serves a file of one of the two
      areas, owned by an existing template and not a directory. */
  function Pluginfile(s: Site, contextId: nat, area: string, args: seq<string>): (r: Served)
    ensures area !in FileAreas ==> r == NotServed
    ensures RequestedItem(args) !in s.templates ==> r == NotServed
    ensures r.Sent? ==>
      var path := ItemPath(contextId, area, RequestedItem(args), RequestedRelativePath(args));
      && area in FileAreas
      && path in s.files && r.file == s.files[path]
      && !r.file.isDirectory
    ensures r == NotServed && area in FileAreas && RequestedItem(args) in s.templates ==>
      var path := ItemPath(contextId, area, RequestedItem(args), RequestedRelativePath(args));
      path !in s.files || s.files[path].isDirectory
  {
    if area !in FileAreas then NotServed
    else
      var id := RequestedItem(args);
      if id !in s.templates then NotServed
      else
        var path := ItemPath(contextId, area, id, RequestedRelativePath(args));
        if path !in s.files || s.files[path].isDirectory then NotServed
        else Sent(s.files[path])
  }

  /** A file this block keeps for an existing template is served back when
      asked for by the template id and the file name. */
  lemma PluginfileServesStoredFile(s: Site, f: StoredFile)
    requires FilesWellKeyed(s)
    requires StoredPath(f) in s.files && s.files[StoredPath(f)] == f
    requires f.component == Component && f.filepath == "/" && f.area in FileAreas
    requires f.itemId in s.templates && !f.isDirectory
    ensures Pluginfile(s, f.contextId, f.area, [NatToString(f.itemId), f.filename]) == Sent(f)
  {
    var args := [NatToString(f.itemId), f.filename];
    IntCastOfNatToString(f.itemId);
    assert RequestedItem(args) == f.itemId;
    assert args[1..] == [f.filename];
    assert RequestedRelativePath(args) == f.filename;
    StoredPathIsItemPath(f);
  }

  // ---------------------------------------------------------------------
  // Backup configuration
  // ---------------------------------------------------------------------

  /** The keys of the backup configuration, `backup_general_*` and
      `backup_auto_*` in camel case. */
  datatype ConfigKey =
    | GeneralUsers | GeneralUsersLocked | GeneralUsersAnonymize | GeneralUsersAnonymizeLocked
    | GeneralRoleAssignments | GeneralRoleAssignmentsLocked | GeneralActivities
    | GeneralActivitiesLocked | GeneralBlocks | GeneralBlocksLocked | GeneralFilters
    | GeneralFiltersLocked | GeneralComments | GeneralCommentsLocked | GeneralUserscompletion
    | GeneralUserscompletionLocked | GeneralLogs | GeneralLogsLocked | GeneralHistories
    | GeneralHistoriesLocked | AutoWeekdays | AutoHour | AutoMinute | AutoStorage | AutoKeep
    | AutoUsers | AutoRoleAssignments | AutoActivities | AutoBlocks | AutoFilters | AutoComments
    | AutoUserscompletion | AutoLogs | AutoHistories | AutoActive | AutoDestination

  /** The configuration key a constructor stands for. */
  function ConfigKeyName(k: ConfigKey): string {
    match k
    case GeneralUsers => "backup_general_users"
    case GeneralUsersLocked => "backup_general_users_locked"
    case GeneralUsersAnonymize => "backup_general_users_anonymize"
    case GeneralUsersAnonymizeLocked => "backup_general_users_anonymize_locked"
    case GeneralRoleAssignments => "backup_general_role_assignments"
    case GeneralRoleAssignmentsLocked => "backup_general_role_assignments_locked"
    case GeneralActivities => "backup_general_activities"
    case GeneralActivitiesLocked => "backup_general_activities_locked"
    case GeneralBlocks => "backup_general_blocks"
    case GeneralBlocksLocked => "backup_general_blocks_locked"
    case GeneralFilters => "backup_general_filters"
    case GeneralFiltersLocked => "backup_general_filters_locked"
    case GeneralComments => "backup_general_comments"
    case GeneralCommentsLocked => "backup_general_comments_locked"
    case GeneralUserscompletion => "backup_general_userscompletion"
    case GeneralUserscompletionLocked => "backup_general_userscompletion_locked"
    case GeneralLogs => "backup_general_logs"
    case GeneralLogsLocked => "backup_general_logs_locked"
    case GeneralHistories => "backup_general_histories"
    case GeneralHistoriesLocked => "backup_general_histories_locked"
    case AutoWeekdays => "backup_auto_weekdays"
    case AutoHour => "backup_auto_hour"
    case AutoMinute => "backup_auto_minute"
    case AutoStorage => "backup_auto_storage"
    case AutoKeep => "backup_auto_keep"
    case AutoUsers => "backup_auto_users"
    case AutoRoleAssignments => "backup_auto_role_assignments"
    case AutoActivities => "backup_auto_activities"
    case AutoBlocks => "backup_auto_blocks"
    case AutoFilters => "backup_auto_filters"
    case AutoComments => "backup_auto_comments"
    case AutoUserscompletion => "backup_auto_userscompletion"
    case AutoLogs => "backup_auto_logs"
    case AutoHistories => "backup_auto_histories"
    case AutoActive => "backup_auto_active"
    case AutoDestination => "backup_auto_destination"
  }

  /** `block_course_template_get_settings`: the fixed configuration used
      instead of the site's backup settings (the weekday mask `0000000` is
      an octal literal, 0). */
  function TemplateBackupConfig(dataroot: string): map<ConfigKey, Value> {
    map[
      GeneralUsers := Int(0),
      GeneralUsersLocked := Int(0),
      GeneralUsersAnonymize := Int(0),
      GeneralUsersAnonymizeLocked := Int(0),
      GeneralRoleAssignments := Int(0),
      GeneralRoleAssignmentsLocked := Int(0),
      GeneralActivities := Int(1),
      GeneralActivitiesLocked := Int(0),
      GeneralBlocks := Int(1),
      GeneralBlocksLocked := Int(0),
      GeneralFilters := Int(1),
      GeneralFiltersLocked := Int(0),
      GeneralComments := Int(0),
      GeneralCommentsLocked := Int(0),
      GeneralUserscompletion := Int(0),
      GeneralUserscompletionLocked := Int(0),
      GeneralLogs := Int(0),
      GeneralLogsLocked := Int(0),
      GeneralHistories := Int(0),
      GeneralHistoriesLocked := Int(0),
      AutoWeekdays := Int(0),
      AutoHour := Int(0),
      AutoMinute := Int(0),
      AutoStorage := Int(1),
      AutoKeep := Int(1),
      AutoUsers := Int(0),
      AutoRoleAssignments := Int(0),
      AutoActivities := Int(1),
      AutoBlocks := Int(1),
      AutoFilters := Int(1),
      AutoComments := Int(0),
      AutoUserscompletion := Int(0),
      AutoLogs := Int(0),
      AutoHistories := Int(0),
      AutoActive := Int(2),
      AutoDestination := Text(dataroot + "/temp/backup/")
    ]
  }

  /** Plan setting name and the configuration key it is taken from, in the
      order they are applied. */
  const SettingSources: seq<(string, ConfigKey)> := [
    ("users", AutoUsers),
    ("role_assignments", AutoRoleAssignments),
    ("activities", AutoActivities),
    ("blocks", AutoBlocks),
    ("filters", AutoFilters),
    ("comments", AutoComments),
    ("completion_information", AutoUserscompletion),
    ("logs", AutoLogs),
    ("histories", AutoHistories)
  ]

  /** Plan settings the fixed configuration switches off. */
  const ExcludedContent: set<string> :=
    {"users", "role_assignments", "comments", "completion_information", "logs", "histories"}

  /** Plan settings the fixed configuration switches on. */
  const IncludedContent: set<string> := {"activities", "blocks", "filters"}

  function SettingNames(pairs: seq<(string, ConfigKey)>): set<string> {
    set k | 0 <= k < |pairs| :: pairs[k].0
  }

  ghost predicate DistinctSettings(pairs: seq<(string, ConfigKey)>) {
    forall j, k :: 0 <= j < k < |pairs| ==> pairs[j].0 != pairs[k].0
  }

  ghost predicate SourcesConfigured(pairs: seq<(string, ConfigKey)>, config: map<ConfigKey, Value>) {
    forall k :: 0 <= k < |pairs| ==> pairs[k].1 in config
  }

  /** The `foreach` over the setting pairs: a setting the plan offers takes
      its configured value; a setting it does not offer is skipped. */
  function ApplySettings(plan: map<string, Value>, config: map<ConfigKey, Value>, pairs: seq<(string, ConfigKey)>)
    : (r: map<string, Value>)
    requires SourcesConfigured(pairs, config)
    requires DistinctSettings(pairs)
    ensures r.Keys == plan.Keys
    ensures forall k :: 0 <= k < |pairs| && pairs[k].0 in plan ==> r[pairs[k].0] == config[pairs[k].1]
    ensures forall n :: n in plan && n !in SettingNames(pairs) ==> r[n] == plan[n]
    decreases |pairs|
  {
    if pairs == [] then plan
    else
      var name := pairs[0].0;
      var next := if name in plan then plan[name := config[pairs[0].1]] else plan;
      var r := ApplySettings(next, config, pairs[1..]);
      assert forall k :: 1 <= k < |pairs| ==> pairs[k] == pairs[1..][k - 1];
      assert forall n :: n in SettingNames(pairs[1..]) ==> n in SettingNames(pairs);
      assert name !in SettingNames(pairs[1..]);
      r
  }

  /** The fixed configuration supplies every key the setting pairs read. */
  lemma TemplateConfigCoversSources(dataroot: string)
    ensures SourcesConfigured(SettingSources, TemplateBackupConfig(dataroot))
    ensures DistinctSettings(SettingSources)
  {
  }

  /** The values a configuration gives the setting sources: off for user
      data and the like, on for activities, blocks and filters. */
  ghost predicate SwitchesContent(config: map<ConfigKey, Value>) {
    && SourcesConfigured(SettingSources, config)
    && (forall k :: 0 <= k < |SettingSources| && SettingSources[k].0 in ExcludedContent ==>
          config[SettingSources[k].1] == Int(0))
    && (forall k :: 0 <= k < |SettingSources| && SettingSources[k].0 in IncludedContent ==>
          config[SettingSources[k].1] == Int(1))
  }

  lemma TemplateConfigSwitchesContent(dataroot: string)
    ensures SwitchesContent(TemplateBackupConfig(dataroot))
  {
  }

  /** Every switched setting is one of the setting sources. */
  lemma SwitchedAreSources()
    ensures ExcludedContent + IncludedContent <= SettingNames(SettingSources)
  {
    assert SettingSources[0].0 == "users";
    assert SettingSources[1].0 == "role_assignments";
    assert SettingSources[2].0 == "activities";
    assert SettingSources[3].0 == "blocks";
    assert SettingSources[4].0 == "filters";
    assert SettingSources[5].0 == "comments";
    assert SettingSources[6].0 == "completion_information";
    assert SettingSources[7].0 == "logs";
    assert SettingSources[8].0 == "histories";
  }

  lemma AppliedContentSwitches(plan: map<string, Value>, config: map<ConfigKey, Value>)
    requires SwitchesContent(config)
    requires DistinctSettings(SettingSources)
    ensures var r := ApplySettings(plan, config, SettingSources);
      && (forall n :: n in plan && n in ExcludedContent ==> r[n] == Int(0))
      && (forall n :: n in plan && n in IncludedContent ==> r[n] == Int(1))
  {
    var r := ApplySettings(plan, config, SettingSources);
    SwitchedAreSources();
    forall n | n in plan && n in ExcludedContent + IncludedContent
      ensures n in ExcludedContent ==> r[n] == Int(0)
      ensures n in IncludedContent ==> r[n] == Int(1)
    {
      assert n in SettingNames(SettingSources);
      var k :| 0 <= k < |SettingSources| && SettingSources[k].0 == n;
    }
  }

  /** With the fixed configuration, user data, role assignments, comments,
      completion information, logs and histories are switched off and
      activities, blocks and filters switched on, wherever the plan offers
      them; every other plan setting keeps its value. */
  lemma TemplateBackupSettings(plan: map<string, Value>, dataroot: string)
    ensures SourcesConfigured(SettingSources, TemplateBackupConfig(dataroot))
    ensures DistinctSettings(SettingSources)
    ensures var r := ApplySettings(plan, TemplateBackupConfig(dataroot), SettingSources);
      && (forall n :: n in plan && n in ExcludedContent ==> r[n] == Int(0))
      && (forall n :: n in plan && n in IncludedContent ==> r[n] == Int(1))
      && (forall n :: n in plan && n !in SettingNames(SettingSources) ==> r[n] == plan[n])
  {
    TemplateConfigCoversSources(dataroot);
    TemplateConfigSwitchesContent(dataroot);
    AppliedContentSwitches(plan, TemplateBackupConfig(dataroot));
  }

  /** The fixed configuration's storage mode is 1 and its destination is
      the site's temporary backup directory. */
  lemma TemplateConfigStorage(dataroot: string)
    ensures StorageMode(TemplateBackupConfig(dataroot)) == 1
    ensures Destination(TemplateBackupConfig(dataroot)) == dataroot + "/temp/backup/"
    ensures !PhpEmpty(Destination(TemplateBackupConfig(dataroot)))
  {
  }

  // ---------------------------------------------------------------------
  // Where the archive is kept
  // ---------------------------------------------------------------------

  /** Whether the archive is copied into the block's file area, and whether
      the engine's original is then deleted. */
  datatype StorageDecision = StorageDecision(copy: bool, deleteOriginal: bool)

  /** The storage rule: copy when the destination directory is usable and
      the storage mode is not 0; delete the original when the mode is 1 and
      the copy came back. */
  function DecideStorage(destinationUsable: bool, storage: int, copySucceeded: bool): (d: StorageDecision)
    ensures d.copy <==> destinationUsable && storage != 0
    ensures d.deleteOriginal ==> d.copy && copySucceeded
    ensures d.deleteOriginal <==> destinationUsable && storage == 1 && copySucceeded
    ensures storage != 1 ==> !d.deleteOriginal
  {
    var copy := destinationUsable && storage != 0;
    StorageDecision(copy, copy && copySucceeded && storage == 1)
  }

  /** What the opaque backup engine was asked to back up. */
  datatype BackupRun = BackupRun(course: nat, settings: map<string, Value>)

  /** The environment of one archive build: the settings the engine's plan
      offers, whether the engine raises, and the file-system checks. */
  datatype ArchiveEnv = ArchiveEnv(
    planSettings: map<string, Value>,
    backupFails: bool,
    destinationUsable: bool,
    copySucceeds: bool,
    sysContextId: nat,
    dataroot: string)

  datatype ArchiveOutcome = ArchiveOutcome(
    run: BackupRun,
    templateFile: Option<StoredFile>,
    originalDeleted: bool)

  datatype ArchiveError = CourseMissing(courseId: nat) | BackupFailed(templateId: nat)

  /** The copy of the archive kept for a template. */
  function TemplateArchiveFile(sysContextId: nat, t: Template): (f: StoredFile)
    ensures f.filename == ArchiveFilename(t.id, t.course, t.timecreated)
    ensures StoredPath(f) == ItemPath(sysContextId, "backupfile", t.id, f.filename)
    ensures !PhpEmpty(f.filename)
  {
    StoredFile(sysContextId, Component, "backupfile", t.id, "/",
               ArchiveFilename(t.id, t.course, t.timecreated), false)
  }

  /** The storage mode, `(int)` of the configured value; an unset value
      reads as 0. */
  function StorageMode(config: map<ConfigKey, Value>): int {
    if AutoStorage !in config then 0
    else match config[AutoStorage]
      case Int(i) => i
      case Text(t) => IntCast(t)
  }

  /** The destination directory, or "" when it is unset. */
  function Destination(config: map<ConfigKey, Value>): string {
    if AutoDestination in config && config[AutoDestination].Text? then config[AutoDestination].s else ""
  }

  /** `course_template_create_archive` for a given configuration object
      and setting-pair list: backs up the template's course with the configured settings and, as
      the storage rule decides, keeps a copy under the template's id. The
      result carries the copy when one was made. */
  function CreateArchiveWith(t: Template, courses: map<nat, Course>, env: ArchiveEnv,
                             config: map<ConfigKey, Value>, pairs: seq<(string, ConfigKey)>)
    : (r: Result<ArchiveOutcome, ArchiveError>)
    requires SourcesConfigured(pairs, config)
    requires DistinctSettings(pairs)
    ensures t.course !in courses ==> r == Failure(CourseMissing(t.course))
    ensures t.course in courses && env.backupFails ==> r == Failure(BackupFailed(t.id))
    ensures r.Success? <==> t.course in courses && !env.backupFails
    ensures r.Success? ==>
      var d := DecideStorage(env.destinationUsable && !PhpEmpty(Destination(config)),
                             StorageMode(config), env.copySucceeds);
      && r.value.run == BackupRun(t.course, ApplySettings(env.planSettings, config, pairs))
      && (r.value.templateFile.Some? <==> d.copy && env.copySucceeds)
      && r.value.originalDeleted == d.deleteOriginal
      && (r.value.templateFile.Some? ==> r.value.templateFile.value == TemplateArchiveFile(env.sysContextId, t))
  {
    if t.course !in courses then Failure(CourseMissing(t.course))
    else
      var settings := ApplySettings(env.planSettings, config, pairs);
      if env.backupFails then Failure(BackupFailed(t.id))
      else
        var usable := env.destinationUsable && !PhpEmpty(Destination(config));
        var d := DecideStorage(usable, StorageMode(config), env.copySucceeds);
        var file := if d.copy && env.copySucceeds then Some(TemplateArchiveFile(env.sysContextId, t)) else None;
        Success(ArchiveOutcome(BackupRun(t.course, settings), file, d.deleteOriginal))
  }

  /** The settings the fixed configuration yields from the plan's own. */
  ghost predicate TemplateConfigApplied(env: ArchiveEnv, settings: map<string, Value>) {
    && SourcesConfigured(SettingSources, TemplateBackupConfig(env.dataroot))
    && DistinctSettings(SettingSources)
    && settings == ApplySettings(env.planSettings, TemplateBackupConfig(env.dataroot), SettingSources)
  }

  /** `course_template_create_archive` with the block's fixed configuration. */
  function CreateArchive(t: Template, courses: map<nat, Course>, env: ArchiveEnv)
    : (r: Result<ArchiveOutcome, ArchiveError>)
    ensures t.course !in courses ==> r == Failure(CourseMissing(t.course))
    ensures t.course in courses && env.backupFails ==> r == Failure(BackupFailed(t.id))
    ensures r.Success? <==> t.course in courses && !env.backupFails
    ensures r.Success? ==> r.value.run.course == t.course
    ensures r.Success? ==> TemplateConfigApplied(env, r.value.run.settings)
  {
    TemplateConfigCoversSources(env.dataroot);
    CreateArchiveWith(t, courses, env, TemplateBackupConfig(env.dataroot), SettingSources)
  }

  /** The course is backed up without user data, role assignments, comments,
      completion information, logs or histories, and with its activities,
      blocks and filters. */
  lemma CreateArchiveSettings(t: Template, courses: map<nat, Course>, env: ArchiveEnv)
    ensures var r := CreateArchive(t, courses, env);
      r.Success? ==>
        && (forall n :: n in env.planSettings && n in ExcludedContent ==> r.value.run.settings[n] == Int(0))
        && (forall n :: n in env.planSettings && n in IncludedContent ==> r.value.run.settings[n] == Int(1))
  {
    var r := CreateArchive(t, courses, env);
    if r.Success? {
      AppliedTemplateConfig(env, r.value.run.settings);
    }
  }

  lemma AppliedTemplateConfig(env: ArchiveEnv, settings: map<string, Value>)
    requires TemplateConfigApplied(env, settings)
    ensures forall n :: n in env.planSettings && n in ExcludedContent ==> settings[n] == Int(0)
    ensures forall n :: n in env.planSettings && n in IncludedContent ==> settings[n] == Int(1)
  {
    TemplateBackupSettings(env.planSettings, env.dataroot);
  }

  /** Storage mode 1 moves the archive: the copy under the template's id is
      kept whenever the destination is usable and the copy comes back, it
      carries the deterministic archive name, and the engine's original is
      deleted exactly when the copy exists. */
  lemma CreateArchiveMovesArchive(t: Template, courses: map<nat, Course>, env: ArchiveEnv)
    ensures var r := CreateArchive(t, courses, env);
      r.Success? ==>
        && (r.value.templateFile.Some? <==> env.destinationUsable && env.copySucceeds)
        && (r.value.originalDeleted <==> r.value.templateFile.Some?)
        && (r.value.templateFile.Some? ==> r.value.templateFile.value == TemplateArchiveFile(env.sysContextId, t))
  {
    TemplateConfigStorage(env.dataroot);
  }
}

=== FILE: course_form.dfy ===
/** The form for creating a course from a template or importing one into
    a course (course_form.php): which elements it shows in each mode, and
    its server-side validation. */
module CourseForm {
  import opened Strings
  import opened Tables

  datatype ButtonLabel = CreateCourseLabel | ImportLabel

  /** The named fields of the form. */
  datatype Field =
    | TemplateSelect | TemplateParam | ChannelHeading | ChannelFlag | CategorySelect
    | FullnameField | ShortnameField | IdnumberField | SummaryEditor | StartdateField
    | CourseParam | RefererField | SubmitButton | CancelButton | SesskeyField | FormMarker

  /** The name a field is submitted under. */
  function FieldName(f: Field): string {
    match f
    case TemplateSelect => "template"
    case TemplateParam => "t"
    case ChannelHeading => "customcourseheading"
    case ChannelFlag => "setchannel"
    case CategorySelect => "category"
    case FullnameField => "fullname"
    case ShortnameField => "shortname"
    case IdnumberField => "idnumber"
    case SummaryEditor => "summary_editor"
    case StartdateField => "startdate"
    case CourseParam => "c"
    case RefererField => "referer"
    case SubmitButton => "submitbutton"
    case CancelButton => "cancel"
    case SesskeyField => "sesskey"
    case FormMarker => "_qf__block_course_template_course_form"
  }

  datatype Element =
    | Header(heading: string)
    | Select(field: Field, options: map<nat, string>)
    | Hidden(field: Field, value: Value)
    | Editor(field: Field)
    | TextField(field: Field, maxLength: nat)
    | DateSelector(field: Field)
    | ActionButtons(caption: ButtonLabel)

  /** The elements in order, the defaults set on them and the fields the
      client requires. */
  datatype FormSpec = FormSpec(elements: seq<Element>, defaults: map<Field, Value>, required: set<Field>)

  /** The fields a submission of this element can carry. */
  function ElementFields(e: Element): set<Field> {
    match e
    case Header(_) => {}
    case ActionButtons(_) => {SubmitButton, CancelButton}
    case Select(f, _) => {f}
    case Hidden(f, _) => {f}
    case Editor(f) => {f}
    case TextField(f, _) => {f}
    case DateSelector(f) => {f}
  }

  /** Every name a submission of the form can carry, including the hidden
      fields every form adds for its own bookkeeping. */
  function SubmittedNames(elements: seq<Element>): set<string> {
    {FieldName(SesskeyField), FieldName(FormMarker)}
    + set e, f | e in elements && f in ElementFields(e) :: FieldName(f)
  }

  /** The template options: each template whose course still exists, by
      its id, labelled with its name. */
  function TemplateOptions(s: Site): (r: map<nat, string>)
    ensures forall id :: id in r <==> id in s.templates && s.templates[id].course in s.courses
    ensures forall id :: id in r ==> r[id] == s.templates[id].name
  {
    map id | id in s.templates && s.templates[id].course in s.courses :: s.templates[id].name
  }

  /** The header and the template select, with the passed template kept in
      a hidden field when there is one. */
  function TemplateFields(s: Site, template: int): seq<Element> {
    [Header("detailsheading"), Select(TemplateSelect, TemplateOptions(s))]
    + (if template != 0 then [Hidden(TemplateParam, Int(template))] else [])
  }

  /** The course fields shown when a new course is made. */
  function NewCourseFields(setchannel: bool, categories: map<nat, string>): seq<Element> {
    (if setchannel then [Editor(ChannelHeading), Hidden(ChannelFlag, Int(1))] else [])
    + [ Select(CategorySelect, categories),
        TextField(FullnameField, 254),
        TextField(ShortnameField, 100),
        TextField(IdnumberField, 100),
        Editor(SummaryEditor),
        DateSelector(StartdateField) ]
  }

  /** The course fields for a new course, or the target course for an import. */
  function CourseFields(courseId: int, setchannel: bool, categories: map<nat, string>): seq<Element> {
    if courseId == 0 then NewCourseFields(setchannel, categories) else [Hidden(CourseParam, Int(courseId))]
  }

  /** `definition()`: the template select (preselected when a template was
      passed), the course fields for a new course or the target course id
      for an import, the referer and the buttons. `categories` stands for
      the categories the user may create courses in. */
  function Definition(s: Site, template: int, courseId: int, setchannel: bool,
                      categories: map<nat, string>, referer: string): (r: FormSpec)
    ensures |r.elements| >= 4
    ensures r.elements[0] == Header("detailsheading")
    ensures r.elements[1] == Select(TemplateSelect, TemplateOptions(s))
    ensures r.elements[|r.elements| - 1]
         == ActionButtons(if courseId == 0 then CreateCourseLabel else ImportLabel)
    ensures Hidden(RefererField, Text(referer)) in r.elements
    ensures TemplateSelect in r.defaults <==> template != 0
    ensures TemplateSelect in r.defaults ==> r.defaults[TemplateSelect] == Int(template)
    ensures r.required == (if courseId == 0 then {FullnameField, ShortnameField} else {})
  {
    var tail := [Hidden(RefererField, Text(referer)),
                 ActionButtons(if courseId == 0 then CreateCourseLabel else ImportLabel)];
    FormSpec(TemplateFields(s, template) + CourseFields(courseId, setchannel, categories) + tail,
             if template != 0 then map[TemplateSelect := Int(template)] else map[],
             if courseId == 0 then {FullnameField, ShortnameField} else {})
  }

  /** The passed template is kept in the hidden `t` field exactly when one
      was passed. */
  lemma DefinitionKeepsTemplate(s: Site, template: int, courseId: int, setchannel: bool,
                                categories: map<nat, string>, referer: string)
    ensures var es := Definition(s, template, courseId, setchannel, categories, referer).elements;
      Hidden(TemplateParam, Int(template)) in es <==> template != 0
  {
    var h := Hidden(TemplateParam, Int(template));
    DefinitionParts(s, template, courseId, setchannel, categories, referer, h);
    assert h in TemplateFields(s, template) <==> template != 0;
    assert h !in CourseFields(courseId, setchannel, categories);
  }

  /** An element of the form is in its template part, its course part or
      its closing part. */
  lemma DefinitionParts(s: Site, template: int, courseId: int, setchannel: bool,
                        categories: map<nat, string>, referer: string, e: Element)
    ensures var es := Definition(s, template, courseId, setchannel, categories, referer).elements;
      e in es <==> e in TemplateFields(s, template) || e in CourseFields(courseId, setchannel, categories)
                   || e == Hidden(RefererField, Text(referer))
                   || e == ActionButtons(if courseId == 0 then CreateCourseLabel else ImportLabel)
  {
  }

  /** Only the header, the template select and the hidden `t` field are in
      the template part. */
  lemma TemplateFieldsShape(s: Site, template: int, e: Element)
    requires e in TemplateFields(s, template)
    ensures e == Header("detailsheading") || e == Select(TemplateSelect, TemplateOptions(s))
         || e == Hidden(TemplateParam, Int(template))
  {
  }

  /** The elements that belong to the course part of the form: every
      element but the header, the template select, the hidden `t` and
      referer fields and the buttons. */
  predicate CourseDetail(e: Element) {
    || e.Editor? || e.TextField? || e.DateSelector?
    || (e.Select? && e.field != TemplateSelect)
    || (e.Hidden? && e.field != TemplateParam && e.field != RefererField)
  }

  /** Whether a course-part element is on the form depends on the course
      part alone. */
  lemma CoursePartDecides(s: Site, template: int, courseId: int, setchannel: bool,
                          categories: map<nat, string>, referer: string, e: Element)
    requires CourseDetail(e)
    ensures e in Definition(s, template, courseId, setchannel, categories, referer).elements
        <==> e in CourseFields(courseId, setchannel, categories)
  {
    DefinitionParts(s, template, courseId, setchannel, categories, referer, e);
    if e in TemplateFields(s, template) {
      TemplateFieldsShape(s, template, e);
    }
  }

  /** An import carries the target course in the hidden `c` field, and only
      an import does; an import shows no other course element. */
  lemma DefinitionImportField(s: Site, template: int, courseId: int, setchannel: bool,
                              categories: map<nat, string>, referer: string)
    ensures var es := Definition(s, template, courseId, setchannel, categories, referer).elements;
      Hidden(CourseParam, Int(courseId)) in es <==> courseId != 0
    ensures var es := Definition(s, template, courseId, setchannel, categories, referer).elements;
      courseId != 0 ==> forall e :: e in es && CourseDetail(e) ==> e == Hidden(CourseParam, Int(courseId))
  {
    CoursePartDecides(s, template, courseId, setchannel, categories, referer, Hidden(CourseParam, Int(courseId)));
    var es := Definition(s, template, courseId, setchannel, categories, referer).elements;
    forall e | e in es && CourseDetail(e)
      ensures courseId != 0 ==> e == Hidden(CourseParam, Int(courseId))
    {
      CoursePartDecides(s, template, courseId, setchannel, categories, referer, e);
    }
  }

  /** The category, name, short name, id number, summary and start date
      fields appear exactly when a new course is made. */
  lemma DefinitionCourseFields(s: Site, template: int, courseId: int, setchannel: bool,
                               categories: map<nat, string>, referer: string)
    ensures var es := Definition(s, template, courseId, setchannel, categories, referer).elements;
      && (Select(CategorySelect, categories) in es <==> courseId == 0)
      && (TextField(FullnameField, 254) in es <==> courseId == 0)
      && (TextField(ShortnameField, 100) in es <==> courseId == 0)
      && (TextField(IdnumberField, 100) in es <==> courseId == 0)
      && (Editor(SummaryEditor) in es <==> courseId == 0)
      && (DateSelector(StartdateField) in es <==> courseId == 0)
  {
    var fields := NewCourseFields(setchannel, categories);
    var n := |fields|;
    assert fields[n - 6] == Select(CategorySelect, categories);
    assert fields[n - 5] == TextField(FullnameField, 254);
    assert fields[n - 4] == TextField(ShortnameField, 100);
    assert fields[n - 3] == TextField(IdnumberField, 100);
    assert fields[n - 2] == Editor(SummaryEditor);
    assert fields[n - 1] == DateSelector(StartdateField);
    CoursePartDecides(s, template, courseId, setchannel, categories, referer, Select(CategorySelect, categories));
    CoursePartDecides(s, template, courseId, setchannel, categories, referer, TextField(FullnameField, 254));
    CoursePartDecides(s, template, courseId, setchannel, categories, referer, TextField(ShortnameField, 100));
    CoursePartDecides(s, template, courseId, setchannel, categories, referer, TextField(IdnumberField, 100));
    CoursePartDecides(s, template, courseId, setchannel, categories, referer, Editor(SummaryEditor));
    CoursePartDecides(s, template, courseId, setchannel, categories, referer, DateSelector(StartdateField));
  }

  /** The channel heading editor and the hidden `setchannel` flag appear
      only for a new course requested as a channel. */
  lemma DefinitionChannelFields(s: Site, template: int, courseId: int, setchannel: bool,
                                categories: map<nat, string>, referer: string)
    ensures var es := Definition(s, template, courseId, setchannel, categories, referer).elements;
      && (Editor(ChannelHeading) in es <==> courseId == 0 && setchannel)
      && (Hidden(ChannelFlag, Int(1)) in es <==> courseId == 0 && setchannel)
  {
    CoursePartDecides(s, template, courseId, setchannel, categories, referer, Editor(ChannelHeading));
    CoursePartDecides(s, template, courseId, setchannel, categories, referer, Hidden(ChannelFlag, Int(1)));
    if courseId == 0 && setchannel {
      assert NewCourseFields(setchannel, categories)[0] == Editor(ChannelHeading);
      assert NewCourseFields(setchannel, categories)[1] == Hidden(ChannelFlag, Int(1));
    }
  }

  /** No field is submitted as `courseid`. */
  lemma NoFieldNamedCourseid(f: Field)
    ensures FieldName(f) != "courseid"
  {
  }

  // ---------------------------------------------------------------------
  // Validation
  // ---------------------------------------------------------------------

  /** A validation message: one the parent form reported, or the short name
      being taken by the listed courses. */
  datatype FormError = ParentError(text: string) | ShortnameTaken(courses: string)

  /** The course rows with the given short name, in table order. */
  function CoursesWithShortname(courses: seq<Course>, shortname: string): (r: seq<Course>)
    ensures |r| <= |courses|
    ensures forall k :: 0 <= k < |r| ==> r[k].shortname == shortname && r[k] in courses
    ensures forall c :: c in courses && c.shortname == shortname ==> c in r
  {
    if courses == [] then []
    else (if courses[0].shortname == shortname then [courses[0]] else [])
         + CoursesWithShortname(courses[1..], shortname)
  }

  /** Each course with the short name is found as often as the table
      holds it, and no other course is found. */
  lemma {:induction false} CoursesWithShortnameCounts(courses: seq<Course>, shortname: string)
    ensures forall c :: multiset(CoursesWithShortname(courses, shortname))[c]
                     == if c.shortname == shortname then multiset(courses)[c] else 0
  {
    if courses != [] {
      assert courses == [courses[0]] + courses[1..];
      CoursesWithShortnameCounts(courses[1..], shortname);
    }
  }

  /** The search keeps table order: the matches in a concatenation are the
      matches in the first part followed by those in the second. */
  lemma {:induction false} CoursesWithShortnameAppend(a: seq<Course>, b: seq<Course>, shortname: string)
    ensures CoursesWithShortname(a + b, shortname)
         == CoursesWithShortname(a, shortname) + CoursesWithShortname(b, shortname)
  {
    if a == [] {
      assert a + b == b;
    } else {
      assert (a + b)[0] == a[0];
      assert (a + b)[1..] == a[1..] + b;
      CoursesWithShortnameAppend(a[1..], b, shortname);
    }
  }

  function Fullnames(cs: seq<Course>): (r: seq<string>)
    ensures |r| == |cs|
    ensures forall k :: 0 <= k < |cs| ==> r[k] == cs[k].fullname
  {
    seq(|cs|, k requires 0 <= k < |cs| => cs[k].fullname)
  }

  /** `validation()`: the parent's errors, plus a short-name error naming the
      courses that use the submitted short name when the data carries a
      `courseid`. A missing short name matches no course. */
  function Validation(parent: map<string, FormError>, data: map<string, string>, courses: seq<Course>)
    : (r: map<string, FormError>)
    ensures "courseid" !in data ==> r == parent
    ensures r.Keys == parent.Keys || r.Keys == parent.Keys + {"shortname"}
    ensures forall f :: f in parent && f != "shortname" ==> r[f] == parent[f]
    ensures "shortname" in r && r != parent ==>
      && "courseid" in data && "shortname" in data
      && var found := CoursesWithShortname(courses, data["shortname"]);
         found != [] && r["shortname"] == ShortnameTaken(Join(Fullnames(found), ','))
    ensures "courseid" in data && "shortname" in data && CoursesWithShortname(courses, data["shortname"]) != [] ==>
      r == parent["shortname" := ShortnameTaken(Join(Fullnames(CoursesWithShortname(courses, data["shortname"])), ','))]
  {
    if "courseid" !in data || "shortname" !in data then parent
    else
      var found := CoursesWithShortname(courses, data["shortname"]);
      if found == [] then parent
      else parent["shortname" := ShortnameTaken(Join(Fullnames(found), ','))]
  }

  /** When no course name contains a comma, the message lists exactly the
      courses with the short name, in table order. */
  lemma ShortnameMessageListsCourses(parent: map<string, FormError>, data: map<string, string>, courses: seq<Course>)
    requires "courseid" in data && "shortname" in data
    requires forall k :: 0 <= k < |courses| ==> ',' !in courses[k].fullname
    ensures var r := Validation(parent, data, courses);
      var found := CoursesWithShortname(courses, data["shortname"]);
      found != [] ==>
        && "shortname" in r && r["shortname"].ShortnameTaken?
        && Split(r["shortname"].courses, ',') == Fullnames(found)
  {
    var found := CoursesWithShortname(courses, data["shortname"]);
    if found != [] {
      var names := Fullnames(found);
      forall k | 0 <= k < |names| ensures ',' !in names[k] {
        assert found[k] in courses;
      }
      SplitJoin(names, ',');
    }
  }

  /** The form has no `courseid` element (the target course travels as
      `c`), so a submission of it never carries `courseid` and validation
      only ever returns the parent's errors. */
  lemma ValidationKeepsParentErrors(s: Site, template: int, courseId: int, setchannel: bool,
                                    categories: map<nat, string>, referer: string,
                                    parent: map<string, FormError>, data: map<string, string>, courses: seq<Course>)
    requires data.Keys <= SubmittedNames(Definition(s, template, courseId, setchannel, categories, referer).elements)
    ensures Validation(parent, data, courses) == parent
  {
    forall f: Field ensures FieldName(f) != "courseid" {
      NoFieldNamedCourseid(f);
    }
  }
}

=== FILE: materialize.dfy ===
/** Turning a template into a new course, or importing it into an existing
    one (newcourse.php, from the submitted form onwards). Page set-up,
    redirects, capability checks and the audience and search calls are not
    modelled; the restore engine is a function the request is given. */
module Materialize {
  import opened Wrappers
  import opened Strings
  import opened Tables
  import Archive

  // ---------------------------------------------------------------------
  // Mode and restore target
  // ---------------------------------------------------------------------

  /** Create a new course (`$insert` false) or import into course `courseId`. */
  datatype Mode = NewCourse | Import(courseId: nat)

  datatype RequestError =
    | NoCategoryPermission
    | SiteCourse
    | CourseNotFound(requested: int)
    | NoTemplates
    | TemplateNotFound(templateId: nat)
    | ArchiveFailed(cause: Archive.ArchiveError)
    | NoArchiveCopy
    | ArchiveNotFound
    | MoveArchiveFailed
    | ExtractFailed
    | NoDirectory
    | RestoreFailed

  /** Whether the request imports into an existing course. */
  predicate Inserting(m: Mode) {
    m.Import?
  }

  /** The mode chosen from the `c` parameter: 0 creates a course (when the
      user may create one in some category), 1 is the site course and is
      refused, anything else names the course to import into. */
  function SelectMode(courseId: int, courses: map<nat, Course>, hasCategories: bool)
    : (r: Result<Mode, RequestError>)
    ensures r.Success? && r.value == NewCourse <==> courseId == 0 && hasCategories
    ensures courseId == 0 && !hasCategories ==> r == Failure(NoCategoryPermission)
    ensures courseId == 1 ==> r == Failure(SiteCourse)
    ensures r.Success? && r.value.Import? ==>
      courseId == r.value.courseId && courseId != 1 && r.value.courseId in courses
    ensures courseId != 0 && courseId != 1 ==>
      (r.Success? <==> courseId >= 0 && courseId as nat in courses)
  {
    if courseId == 0 then
      if hasCategories then Success(NewCourse) else Failure(NoCategoryPermission)
    else if courseId == 1 then Failure(SiteCourse)
    else if courseId >= 0 && courseId as nat in courses then Success(Import(courseId as nat))
    else Failure(CourseNotFound(courseId))
  }

  datatype RestoreTarget = TargetNewCourse | TargetExistingAdding

  function RestoreTargetFor(insert: bool): RestoreTarget {
    if !insert then TargetNewCourse else TargetExistingAdding
  }

  /** A new course is restored as a new course, an import adds to the
      existing one. */
  lemma RestoreTargetByMode(m: Mode)
    ensures RestoreTargetFor(Inserting(m)) == TargetNewCourse <==> m == NewCourse
    ensures RestoreTargetFor(Inserting(m)) == TargetExistingAdding <==> m.Import?
  {
  }

  // ---------------------------------------------------------------------
  // The archive, built on first use
  // ---------------------------------------------------------------------

  /** Where the request looks for a template's archive. */
  function RestoreAddress(sysContextId: nat, t: Template): string {
    Archive.ItemPath(sysContextId, "backupfile", t.id, t.filename)
  }

  /** The template as it stands after `EnsureArchive`, and whether the
      backup engine was run for it. */
  datatype Ensured = Ensured(template: Template, built: bool)

  /** The outcome of a step: the tables afterwards (changes made before a
      failure stay) and its result. */
  datatype Step<T> = Step(site: Site, result: Result<T, RequestError>)

  /** Builds the template's archive when it has no file name yet and stores
      the new name on the template row; otherwise changes nothing. A build
      that leaves no copy under the template fails the request. */
  function EnsureArchive(s: Site, t: Template, env: Archive.ArchiveEnv): (r: Step<Ensured>)
    requires t.id in s.templates && s.templates[t.id] == t
    ensures !PhpEmpty(t.filename) ==> r == Step(s, Success(Ensured(t, false)))
    ensures r.site == s.(files := r.site.files, templates := r.site.templates)
    ensures r.result.Failure? ==> r.site == s
    ensures r.result.Success? ==>
      && r.result.value.template == t.(filename := r.result.value.template.filename)
      && r.site.templates == s.templates[t.id := r.result.value.template]
      && !PhpEmpty(r.result.value.template.filename)
      && (r.result.value.built <==> PhpEmpty(t.filename))
    ensures r.result.Success? && r.result.value.built ==>
      var f := Archive.TemplateArchiveFile(env.sysContextId, t);
      && r.site.files == s.files[StoredPath(f) := f]
      && r.result.value.template == t.(filename := f.filename)
    ensures r.result.Success? && !r.result.value.built ==> r.site == s
  {
    if !PhpEmpty(t.filename) then Step(s, Success(Ensured(t, false)))
    else
      var a := Archive.CreateArchive(t, s.courses, env);
      if a.Failure? then Step(s, Failure(ArchiveFailed(a.error)))
      else if a.value.templateFile.None? then Step(s, Failure(NoArchiveCopy))
      else
        var f := a.value.templateFile.value;
        var u := t.(filename := f.filename);
        Archive.CreateArchiveMovesArchive(t, s.courses, env);
        Step(s.(files := s.files[StoredPath(f) := f], templates := s.templates[t.id := u]),
             Success(Ensured(u, true)))
  }

  /** A template without an archive gets one exactly when its course exists,
      the engine succeeds and the copy under the template is made; it then
      carries the deterministic name and is stored at the address the
      request restores from. */
  lemma EnsureArchiveBuilds(s: Site, t: Template, env: Archive.ArchiveEnv)
    requires t.id in s.templates && s.templates[t.id] == t
    requires PhpEmpty(t.filename)
    ensures var r := EnsureArchive(s, t, env);
      r.result.Success? <==>
        t.course in s.courses && !env.backupFails && env.destinationUsable && env.copySucceeds
    ensures var r := EnsureArchive(s, t, env);
      t.course !in s.courses ==> r.result == Failure(ArchiveFailed(Archive.CourseMissing(t.course)))
    ensures var r := EnsureArchive(s, t, env);
      r.result.Success? ==>
        var u := r.result.value.template;
        && u.filename == Archive.ArchiveFilename(t.id, t.course, t.timecreated)
        && RestoreAddress(env.sysContextId, u) in r.site.files
        && r.site.files[RestoreAddress(env.sysContextId, u)] == Archive.TemplateArchiveFile(env.sysContextId, t)
  {
    Archive.CreateArchiveMovesArchive(t, s.courses, env);
    var f := Archive.TemplateArchiveFile(env.sysContextId, t);
    Archive.StoredPathIsItemPath(f);
  }

  /** Once the archive exists a second request reuses it: the template and
      the tables are left as they are and the engine is not run again. */
  lemma EnsureArchiveIdempotent(s: Site, t: Template, env: Archive.ArchiveEnv)
    requires t.id in s.templates && s.templates[t.id] == t
    ensures var r := EnsureArchive(s, t, env);
      r.result.Success? ==>
        var u := r.result.value.template;
        EnsureArchive(r.site, u, env) == Step(r.site, Success(Ensured(u, false)))
  {
  }

  /** Storing a file under its own pathname keeps the files well keyed. */
  lemma StoreKeepsFilesWellKeyed(s: Site, f: StoredFile)
    requires FilesWellKeyed(s)
    ensures FilesWellKeyed(s.(files := s.files[StoredPath(f) := f]))
  {
  }

  /** The archive a first request builds is the file the block's file
      server hands out for that template. */
  lemma BuiltArchiveIsServed(s: Site, t: Template, env: Archive.ArchiveEnv)
    requires t.id in s.templates && s.templates[t.id] == t
    requires PhpEmpty(t.filename)
    requires FilesWellKeyed(s)
    ensures var r := EnsureArchive(s, t, env);
      r.result.Success? ==>
        var u := r.result.value.template;
        && FilesWellKeyed(r.site)
        && Archive.Pluginfile(r.site, env.sysContextId, "backupfile", [NatToString(t.id), u.filename])
           == Archive.Sent(r.site.files[RestoreAddress(env.sysContextId, u)])
  {
    var r := EnsureArchive(s, t, env);
    if r.result.Success? {
      EnsureArchiveBuilds(s, t, env);
      var u := r.result.value.template;
      var f := Archive.TemplateArchiveFile(env.sysContextId, t);
      Archive.StoredPathIsItemPath(f);
      assert r.site.files == s.files[StoredPath(f) := f];
      StoreKeepsFilesWellKeyed(s, f);
      assert r.site == s.(files := s.files[StoredPath(f) := f], templates := r.site.templates);
      assert FilesWellKeyed(r.site);
      assert f.itemId in r.site.templates;
      Archive.PluginfileServesStoredFile(r.site, f);
    }
  }

  // ---------------------------------------------------------------------
  // Restore plan overrides
  // ---------------------------------------------------------------------

  datatype PlanSetting = PlanSetting(uiName: string, value: Value)

  datatype PlanTask = PlanTask(isRoot: bool, settings: seq<PlanSetting>)

  /** The submitted form, as far as the request reads it. `summary` is
      absent when the form had no summary editor; `setchannel` says
      whether the hidden `setchannel` field was submitted. */
  datatype Submission = Submission(
    template: nat,
    category: nat,
    fullname: string,
    shortname: string,
    idnumber: string,
    startdate: int,
    summary: Option<string>,
    setchannel: bool,
    heading: string)

  const FullnameSetting := "setting_course_course_fullname"
  const ShortnameSetting := "setting_course_course_shortname"
  const IdnumberSetting := "setting_course_course_id"
  const StartdateSetting := "setting_course_course_startdate"

  /** The value the `switch` gives a setting of this name, if any. */
  function OverrideFor(name: string, d: Submission): Option<Value> {
    if name == FullnameSetting then Some(Text(d.fullname))
    else if name == ShortnameSetting then Some(Text(d.shortname))
    else if name == IdnumberSetting then Some(Text(d.idnumber))
    else if name == StartdateSetting then Some(Int(d.startdate))
    else None
  }

  function OverrideSetting(st: PlanSetting, d: Submission): PlanSetting {
    match OverrideFor(st.uiName, d)
    case Some(v) => st.(value := v)
    case None => st
  }

  function OverrideTask(task: PlanTask, d: Submission): PlanTask {
    if task.isRoot then task
    else task.(settings := seq(|task.settings|, j requires 0 <= j < |task.settings| =>
                                 OverrideSetting(task.settings[j], d)))
  }

  /** The submitted course fields replace the plan's course settings, in
      every task but the root one, and only when a new course is made. */
  function SubstituteOverrides(tasks: seq<PlanTask>, insert: bool, d: Submission): (r: seq<PlanTask>)
    ensures |r| == |tasks|
    ensures insert ==> r == tasks
    ensures forall k :: 0 <= k < |r| ==> r[k].isRoot == tasks[k].isRoot
    ensures forall k :: 0 <= k < |r| && tasks[k].isRoot ==> r[k] == tasks[k]
    ensures forall k :: 0 <= k < |r| ==> |r[k].settings| == |tasks[k].settings|
    ensures forall k, j :: 0 <= k < |r| && 0 <= j < |r[k].settings| ==>
      r[k].settings[j].uiName == tasks[k].settings[j].uiName
    ensures !insert ==> forall k, j :: 0 <= k < |r| && !r[k].isRoot && 0 <= j < |r[k].settings| ==>
      var name := r[k].settings[j].uiName;
      && (name == FullnameSetting ==> r[k].settings[j].value == Text(d.fullname))
      && (name == ShortnameSetting ==> r[k].settings[j].value == Text(d.shortname))
      && (name == IdnumberSetting ==> r[k].settings[j].value == Text(d.idnumber))
      && (name == StartdateSetting ==> r[k].settings[j].value == Int(d.startdate))
    ensures forall k, j :: 0 <= k < |r| && 0 <= j < |r[k].settings| ==>
      var name := r[k].settings[j].uiName;
      name !in {FullnameSetting, ShortnameSetting, IdnumberSetting, StartdateSetting} ==>
        r[k].settings[j] == tasks[k].settings[j]
  {
    if insert then tasks
    else seq(|tasks|, k requires 0 <= k < |tasks| => OverrideTask(tasks[k], d))
  }

  /** Substituting twice is substituting once. */
  lemma SubstituteOverridesIdempotent(tasks: seq<PlanTask>, insert: bool, d: Submission)
    ensures SubstituteOverrides(SubstituteOverrides(tasks, insert, d), insert, d)
         == SubstituteOverrides(tasks, insert, d)
  {
    var once := SubstituteOverrides(tasks, insert, d);
    var twice := SubstituteOverrides(once, insert, d);
    if !insert {
      forall k | 0 <= k < |tasks| ensures twice[k] == once[k] {
        if !tasks[k].isRoot {
          assert twice[k].settings == once[k].settings;
        }
      }
    }
  }

  // ---------------------------------------------------------------------
  // After the restore
  // ---------------------------------------------------------------------

  /** The enrolment instances to add to the target course: each source
      instance's fields without its `id`. */
  function CopiedEnrolments(source: seq<Fields>): (r: seq<Fields>)
    ensures |r| == |source|
    ensures forall k :: 0 <= k < |r| ==> "id" !in r[k]
    ensures forall k :: 0 <= k < |r| ==> r[k].Keys == source[k].Keys - {"id"}
    ensures forall k, f :: 0 <= k < |r| && f in r[k] ==> r[k][f] == source[k][f]
  {
    seq(|source|, k requires 0 <= k < |source| => source[k] - {"id"})
  }

  /** Putting the source `id` back into a copied instance gives the source
      instance: the copy drops that one field and nothing else. */
  lemma CopiedEnrolmentsDropOnlyId(source: seq<Fields>, k: nat)
    requires k < |source| && "id" in source[k]
    ensures CopiedEnrolments(source)[k]["id" := source[k]["id"]] == source[k]
  {
    var c := CopiedEnrolments(source)[k];
    assert c["id" := source[k]["id"]].Keys == source[k].Keys;
  }


  /** The enrolment instances of course `c`; none when it has no entry. */
  function EnrolmentsOf(e: map<nat, seq<Fields>>, c: nat): seq<Fields> {
    if c in e then e[c] else []
  }

  /** Adds the copies of course `source`'s enrolment instances to course
      `target`, after the instances `target` already has. */
  function AddEnrolments(e: map<nat, seq<Fields>>, source: nat, target: nat): (r: map<nat, seq<Fields>>)
    ensures r.Keys == e.Keys + {target}
    ensures forall c :: c in e && c != target ==> r[c] == e[c]
    ensures var existing := EnrolmentsOf(e, target);
      var copied := EnrolmentsOf(e, source);
      && |r[target]| == |existing| + |copied|
      && r[target][..|existing|] == existing
      && r[target][|existing|..] == CopiedEnrolments(copied)
  {
    var existing := EnrolmentsOf(e, target);
    var copied := EnrolmentsOf(e, source);
    assert (existing + CopiedEnrolments(copied))[..|existing|] == existing;
    e[target := existing + CopiedEnrolments(copied)]
  }

  /** Rows of `course_info_data` belonging to course `c`, in order. */
  function RowsOf(rows: seq<InfoRow>, c: nat): seq<InfoRow> {
    if rows == [] then []
    else (if rows[0].courseId == c then [rows[0]] else []) + RowsOf(rows[1..], c)
  }

  /** Rows of `course_info_data` belonging to other courses, in order. */
  function OtherRows(rows: seq<InfoRow>, c: nat): seq<InfoRow> {
    if rows == [] then []
    else (if rows[0].courseId != c then [rows[0]] else []) + OtherRows(rows[1..], c)
  }

  lemma {:induction false} RowsOfAppend(a: seq<InfoRow>, b: seq<InfoRow>, c: nat)
    ensures RowsOf(a + b, c) == RowsOf(a, c) + RowsOf(b, c)
  {
    if a == [] {
      assert a + b == b;
    } else {
      var head := if a[0].courseId == c then [a[0]] else [];
      assert (a + b)[0] == a[0];
      assert (a + b)[1..] == a[1..] + b;
      RowsOfAppend(a[1..], b, c);
      calc {
        RowsOf(a + b, c);
        head + RowsOf(a[1..] + b, c);
        head + (RowsOf(a[1..], c) + RowsOf(b, c));
        (head + RowsOf(a[1..], c)) + RowsOf(b, c);
      }
    }
  }

  lemma {:induction false} OtherRowsAppend(a: seq<InfoRow>, b: seq<InfoRow>, c: nat)
    ensures OtherRows(a + b, c) == OtherRows(a, c) + OtherRows(b, c)
  {
    if a == [] {
      assert a + b == b;
    } else {
      var head := if a[0].courseId != c then [a[0]] else [];
      assert (a + b)[0] == a[0];
      assert (a + b)[1..] == a[1..] + b;
      OtherRowsAppend(a[1..], b, c);
      calc {
        OtherRows(a + b, c);
        head + OtherRows(a[1..] + b, c);
        head + (OtherRows(a[1..], c) + OtherRows(b, c));
        (head + OtherRows(a[1..], c)) + OtherRows(b, c);
      }
    }
  }

  lemma {:induction false} OtherRowsHaveNone(rows: seq<InfoRow>, c: nat)
    ensures RowsOf(OtherRows(rows, c), c) == []
    ensures OtherRows(OtherRows(rows, c), c) == OtherRows(rows, c)
  {
    if rows != [] {
      OtherRowsHaveNone(rows[1..], c);
      var head := if rows[0].courseId != c then [rows[0]] else [];
      RowsOfAppend(head, OtherRows(rows[1..], c), c);
      OtherRowsAppend(head, OtherRows(rows[1..], c), c);
      if head != [] {
        assert head[1..] == [];
      }
    }
  }

  /** One custom-field value, without the course it belongs to. */
  datatype FieldData = FieldData(fieldId: nat, data: string)

  /** The `course_info_data` rows holding the given values for course `c`. */
  function CourseRows(c: nat, fields: seq<FieldData>): (r: seq<InfoRow>)
    ensures |r| == |fields|
    ensures forall k :: 0 <= k < |r| ==> r[k] == InfoRow(c, fields[k].fieldId, fields[k].data)
  {
    seq(|fields|, k requires 0 <= k < |fields| => InfoRow(c, fields[k].fieldId, fields[k].data))
  }

  /** Rows that all belong to course `c` are its rows and nobody else's. */
  lemma {:induction false} OwnRows(rows: seq<InfoRow>, c: nat)
    requires forall k :: 0 <= k < |rows| ==> rows[k].courseId == c
    ensures RowsOf(rows, c) == rows
    ensures OtherRows(rows, c) == []
  {
    if rows != [] {
      OwnRows(rows[1..], c);
      assert [rows[0]] + rows[1..] == rows;
    }
  }

  /** Clears course `c`'s custom-field rows and inserts the heading row. */
  function ReplaceHeading(rows: seq<InfoRow>, c: nat, fieldId: nat, text: string): (r: seq<InfoRow>)
    ensures RowsOf(r, c) == [InfoRow(c, fieldId, text)]
    ensures OtherRows(r, c) == OtherRows(rows, c)
  {
    var kept := OtherRows(rows, c);
    var row := InfoRow(c, fieldId, text);
    OtherRowsHaveNone(rows, c);
    RowsOfAppend(kept, [row], c);
    OtherRowsAppend(kept, [row], c);
    assert [row][1..] == [];
    kept + [row]
  }

  /** The course record after the restore: a new course takes the submitted
      id number, and a non-empty submitted summary replaces the summary. */
  function PatchCourse(course: Course, insert: bool, d: Submission): (r: Course)
    ensures r.(idnumber := course.idnumber, summary := course.summary) == course
    ensures !insert ==> r.idnumber == d.idnumber
    ensures insert ==> r.idnumber == course.idnumber
    ensures d.summary.Some? && !PhpEmpty(d.summary.value) ==> r.summary == d.summary.value
    ensures d.summary.None? || PhpEmpty(d.summary.value) ==> r.summary == course.summary
  {
    var withId := if !insert then course.(idnumber := d.idnumber) else course;
    if d.summary.Some? && !PhpEmpty(d.summary.value) then withId.(summary := d.summary.value) else withId
  }

  // ---------------------------------------------------------------------
  // The whole request
  // ---------------------------------------------------------------------

  /** What executing the restore plan writes for the target course: its
      record, the custom-field values and the enrolment instances it copies
      from the archive. */
  datatype Restored = Restored(course: Course, customFields: seq<FieldData>, enrolments: seq<Fields>)

  /** What the host and the restore engine do for the request: the checks
      that can fail, the id a created course gets, the plan the engine
      builds from the archive, what executing it writes, and what it has
      written by the time it raises when it fails (its steps are not
      undone). */
  datatype RequestEnv = RequestEnv(
    hasCategories: bool,
    archive: Archive.ArchiveEnv,
    copyOk: bool,
    extractOk: bool,
    directoryOk: bool,
    newCourseId: nat,
    plan: seq<PlanTask>,
    restoreFails: bool,
    restore: (RestoreTarget, seq<PlanTask>, Course) -> Restored,
    partialRestore: (RestoreTarget, seq<PlanTask>, Course) -> Restored,
    headingFieldId: nat)

  /** The request after the archive is staged and extracted. */
  datatype Prepared = Prepared(mode: Mode, template: Template, courseId: nat)

  /** The restore call the request makes, the course it targets and what
      the engine wrote. */
  datatype Materialized = Materialized(courseId: nat, target: RestoreTarget, tasks: seq<PlanTask>, written: Restored)

  /** The course record `restore_dbops::create_new_course` inserts; the
      columns it does not set are empty. */
  function NewCourseRecord(id: nat, d: Submission): Course {
    Course(id, d.category, d.fullname, d.shortname, "", "", 0)
  }

  /** Mode, template and archive, up to the copy into the temporary
      directory. */
  function Stage(s: Site, courseId: int, d: Submission, env: RequestEnv): (r: Step<(Mode, Template)>)
    requires TemplatesWellKeyed(s)
    ensures r.site == s.(files := r.site.files, templates := r.site.templates)
    ensures r.site == s
         || (d.template in s.templates && PhpEmpty(s.templates[d.template].filename)
             && var t := s.templates[d.template];
                var f := Archive.TemplateArchiveFile(env.archive.sysContextId, t);
                && r.site.templates == s.templates[d.template := t.(filename := f.filename)]
                && r.site.files == s.files[StoredPath(f) := f])
    ensures Staged(r, courseId, d, env)
    ensures r.result.Success? ==>
      && SelectMode(courseId, s.courses, env.hasCategories) == Success(r.result.value.0)
      && env.copyOk
    ensures s.templates == map[] ==> r.result.Failure?
    ensures r.result.Failure? ==> r.result.error !in {ExtractFailed, NoDirectory, RestoreFailed}
  {
    var m := SelectMode(courseId, s.courses, env.hasCategories);
    if m.Failure? then Step(s, Failure(m.error))
    else if s.templates == map[] then Step(s, Failure(NoTemplates))
    else if d.template !in s.templates then Step(s, Failure(TemplateNotFound(d.template)))
    else
      var e := EnsureArchive(s, s.templates[d.template], env.archive);
      if e.result.Failure? then Step(e.site, Failure(e.result.error))
      else
        var t := e.result.value.template;
        if RestoreAddress(env.archive.sysContextId, t) !in e.site.files then Step(e.site, Failure(ArchiveNotFound))
        else if !env.copyOk then Step(e.site, Failure(MoveArchiveFailed))
        else Step(e.site, Success((m.value, t)))
  }

  /** What staging guarantees the rest of the request: it never reports a
      failed restore, and on success the submitted template has its archive
      at the restore address and an import names an existing course other
      than the site course. */
  ghost predicate Staged(st: Step<(Mode, Template)>, courseId: int, d: Submission, env: RequestEnv) {
    && st.result != Failure(RestoreFailed)
    && (st.result.Success? ==>
          var (mode, t) := st.result.value;
          && d.template in st.site.templates && st.site.templates[d.template] == t
          && !PhpEmpty(t.filename)
          && RestoreAddress(env.archive.sysContextId, t) in st.site.files
          && (mode == NewCourse <==> courseId == 0)
          && (mode.Import? ==> mode.courseId == courseId && mode.courseId in st.site.courses))
  }

  /** After staging: the new course record (new-course mode) and the
      extraction. */
  function Prepare(st: Step<(Mode, Template)>, d: Submission, env: RequestEnv): (r: Step<Prepared>)
    ensures r.site == st.site.(courses := r.site.courses)
    ensures st.result.Failure? ==> r.site == st.site
    ensures r.site.courses == st.site.courses
         || (st.result.Success? && st.result.value.0 == NewCourse
             && r.site.courses == st.site.courses[env.newCourseId := NewCourseRecord(env.newCourseId, d)])
    ensures r.result.Success? ==>
      && st.result.Success?
      && var p := r.result.value;
      && p.mode == st.result.value.0 && p.template == st.result.value.1
      && (p.mode == NewCourse ==>
            p.courseId == env.newCourseId
            && r.site.courses == st.site.courses[env.newCourseId := NewCourseRecord(env.newCourseId, d)])
      && (p.mode.Import? ==> p.courseId == p.mode.courseId && r.site.courses == st.site.courses)
    ensures st.result.Success? && env.extractOk && env.directoryOk <==> r.result.Success?
    ensures st.result.Failure? ==> r.result == Failure(st.result.error)
    ensures st.result.Success? && r.result.Failure? ==>
      r.result.error == (if env.extractOk then NoDirectory else ExtractFailed)
  {
    if st.result.Failure? then Step(st.site, Failure(st.result.error))
    else
      var mode := st.result.value.0;
      var s1 := if mode == NewCourse
        then st.site.(courses := st.site.courses[env.newCourseId := NewCourseRecord(env.newCourseId, d)])
        else st.site;
      var target := if mode == NewCourse then env.newCourseId else mode.courseId;
      if !env.extractOk then Step(s1, Failure(ExtractFailed))
      else if !env.directoryOk then Step(s1, Failure(NoDirectory))
      else Step(s1, Success(Prepared(mode, st.result.value.1, target)))
  }

  /** The tables after the engine has restored into course `c`: the
      course record it wrote, its custom-field rows appended for `c`, and its
      enrolment instances added after the ones `c` already had. */
  function ApplyRestore(s: Site, c: nat, w: Restored): (r: Site)
    ensures r == s.(courses := r.courses, infoData := r.infoData, enrolments := r.enrolments)
    ensures r.courses == s.courses[c := w.course.(id := c)]
    ensures r.infoData == s.infoData + CourseRows(c, w.customFields)
    ensures RowsOf(r.infoData, c) == RowsOf(s.infoData, c) + CourseRows(c, w.customFields)
    ensures OtherRows(r.infoData, c) == OtherRows(s.infoData, c)
    ensures r.enrolments.Keys == s.enrolments.Keys + {c}
    ensures forall o :: o in s.enrolments && o != c ==> r.enrolments[o] == s.enrolments[o]
    ensures r.enrolments[c] == EnrolmentsOf(s.enrolments, c) + w.enrolments
  {
    var rows := CourseRows(c, w.customFields);
    OwnRows(rows, c);
    RowsOfAppend(s.infoData, rows, c);
    OtherRowsAppend(s.infoData, rows, c);
    assert OtherRows(s.infoData, c) + [] == OtherRows(s.infoData, c);
    s.(courses := s.courses[c := w.course.(id := c)],
       infoData := s.infoData + rows,
       enrolments := s.enrolments[c := EnrolmentsOf(s.enrolments, c) + w.enrolments])
  }

  /** The course a request restores into: the created one, or the one it
      imports into. */
  function TargetCourse(courseId: nat, env: RequestEnv): nat {
    if courseId == 0 then env.newCourseId else courseId
  }

  /** Runs the restore into the target course; new-course requests carry
      the submitted course fields into the plan. A restore that raises
      keeps what it had already written, all of it in the target course. */
  function Restore(s: Site, p: Prepared, d: Submission, env: RequestEnv): (r: Step<Materialized>)
    requires p.courseId in s.courses
    ensures r.result.Failure? <==> env.restoreFails
    ensures r.result.Failure? ==>
      && r.result.error == RestoreFailed
      && r.site == ApplyRestore(s, p.courseId, env.partialRestore(RestoreTargetFor(Inserting(p.mode)),
                                 SubstituteOverrides(env.plan, Inserting(p.mode), d), s.courses[p.courseId]))
    ensures r.site == s.(courses := r.site.courses, infoData := r.site.infoData, enrolments := r.site.enrolments)
    ensures forall o :: o in s.courses && o != p.courseId ==> o in r.site.courses && r.site.courses[o] == s.courses[o]
    ensures OtherRows(r.site.infoData, p.courseId) == OtherRows(s.infoData, p.courseId)
    ensures r.site.enrolments.Keys == s.enrolments.Keys + {p.courseId}
    ensures forall o :: o in s.enrolments && o != p.courseId ==> r.site.enrolments[o] == s.enrolments[o]
    ensures r.result.Success? ==>
      var c := r.result.value;
      && c.courseId == p.courseId
      && c.target == RestoreTargetFor(Inserting(p.mode))
      && c.tasks == SubstituteOverrides(env.plan, Inserting(p.mode), d)
      && c.written == env.restore(c.target, c.tasks, s.courses[p.courseId])
      && r.site == ApplyRestore(s, p.courseId, c.written)
  {
    var target := RestoreTargetFor(Inserting(p.mode));
    var tasks := SubstituteOverrides(env.plan, Inserting(p.mode), d);
    if env.restoreFails then
      Step(ApplyRestore(s, p.courseId, env.partialRestore(target, tasks, s.courses[p.courseId])), Failure(RestoreFailed))
    else
      var written := env.restore(target, tasks, s.courses[p.courseId]);
      Step(ApplyRestore(s, p.courseId, written), Success(Materialized(p.courseId, target, tasks, written)))
  }

  /** The patches after the restore: course record, enrolment methods and,
      when the channel field was submitted, the custom heading. */
  function Finish(s: Site, p: Prepared, d: Submission, env: RequestEnv): (r: Site)
    requires p.courseId in s.courses
    ensures r == s.(courses := r.courses, enrolments := r.enrolments, infoData := r.infoData)
    ensures r.courses == s.courses[p.courseId := PatchCourse(s.courses[p.courseId], Inserting(p.mode), d)]
    ensures r.enrolments == AddEnrolments(s.enrolments, p.template.course, p.courseId)
    ensures r.templates == s.templates && r.files == s.files
    ensures OtherRows(r.infoData, p.courseId) == OtherRows(s.infoData, p.courseId)
    ensures d.setchannel ==> RowsOf(r.infoData, p.courseId) == [InfoRow(p.courseId, env.headingFieldId, d.heading)]
    ensures !d.setchannel ==> r.infoData == s.infoData
  {
    var rows := if d.setchannel
      then ReplaceHeading(s.infoData, p.courseId, env.headingFieldId, d.heading)
      else s.infoData;
    s.(courses := s.courses[p.courseId := PatchCourse(s.courses[p.courseId], Inserting(p.mode), d)],
       enrolments := AddEnrolments(s.enrolments, p.template.course, p.courseId),
       infoData := rows)
  }

  /** Everything after staging: course creation, extraction, restore and
      the final patches. */
  function Proceed(st: Step<(Mode, Template)>, courseId: int, d: Submission, env: RequestEnv): (r: Step<Materialized>)
    requires Staged(st, courseId, d, env)
    ensures r.result.Failure? && r.result.error != RestoreFailed ==>
      r.site.enrolments == st.site.enrolments && r.site.infoData == st.site.infoData
    ensures r.result == Failure(RestoreFailed) ==>
      && courseId >= 0
      && var c := TargetCourse(courseId as nat, env);
      && OtherRows(r.site.infoData, c) == OtherRows(st.site.infoData, c)
      && r.site.enrolments.Keys == st.site.enrolments.Keys + {c}
      && forall o :: o in st.site.enrolments && o != c ==> r.site.enrolments[o] == st.site.enrolments[o]
    ensures r.site.templates == st.site.templates && r.site.files == st.site.files
    ensures r.site.tags == st.site.tags && r.site.instances == st.site.instances
    ensures r.result.Success? ==> r.result.value.courseId in r.site.courses
    ensures r.result.Success? ==> var c := r.result.value.courseId;
      && (forall o :: o in st.site.courses && o != c ==> o in r.site.courses && r.site.courses[o] == st.site.courses[o])
      && (forall o :: o in st.site.enrolments && o != c ==> o in r.site.enrolments && r.site.enrolments[o] == st.site.enrolments[o])
  {
    var prep := Prepare(st, d, env);
    if prep.result.Failure? then Step(prep.site, Failure(prep.result.error))
    else
      var p := prep.result.value;
      var restored := Restore(prep.site, p, d, env);
      if restored.result.Failure? then restored
      else Step(Finish(restored.site, p, d, env), restored.result)
  }

  /** The submitted form's request, from the mode check to the final
      patches. On success the result names the restore call made. */
  function Materialize(s: Site, courseId: int, d: Submission, env: RequestEnv): (r: Step<Materialized>)
    requires TemplatesWellKeyed(s)
    ensures r.result.Failure? && r.result.error != RestoreFailed ==>
      r.site.enrolments == s.enrolments && r.site.infoData == s.infoData
    ensures r.result == Failure(RestoreFailed) ==>
      && courseId >= 0
      && var c := TargetCourse(courseId as nat, env);
      && OtherRows(r.site.infoData, c) == OtherRows(s.infoData, c)
      && r.site.enrolments.Keys == s.enrolments.Keys + {c}
      && forall o :: o in s.enrolments && o != c ==> r.site.enrolments[o] == s.enrolments[o]
    ensures r.result.Success? ==> r.result.value.courseId in r.site.courses
    ensures r.result.Success? ==> d.template in r.site.templates && !PhpEmpty(r.site.templates[d.template].filename)
    ensures r.site.tags == s.tags && r.site.instances == s.instances
    ensures forall k :: k in s.templates && k != d.template ==> k in r.site.templates && r.site.templates[k] == s.templates[k]
    ensures r.site.files == s.files
         || (d.template in s.templates
             && var f := Archive.TemplateArchiveFile(env.archive.sysContextId, s.templates[d.template]);
                r.site.files == s.files[StoredPath(f) := f])
    ensures r.result.Success? ==> var c := r.result.value.courseId;
      && (forall o :: o in s.courses && o != c ==> o in r.site.courses && r.site.courses[o] == s.courses[o])
      && (forall o :: o in s.enrolments && o != c ==> o in r.site.enrolments && r.site.enrolments[o] == s.enrolments[o])
  {
    Proceed(Stage(s, courseId, d, env), courseId, d, env)
  }

  /** A successful request went through the preparation, the restore and
      the patches, one after the other. */
  lemma ProceedSucceeded(st: Step<(Mode, Template)>, courseId: int, d: Submission, env: RequestEnv)
    requires Staged(st, courseId, d, env)
    requires Proceed(st, courseId, d, env).result.Success?
    ensures var prep := Prepare(st, d, env);
      && prep.result.Success?
      && var p := prep.result.value;
         var restored := Restore(prep.site, p, d, env);
         && restored.result.Success?
         && Proceed(st, courseId, d, env) == Step(Finish(restored.site, p, d, env), restored.result)
  {
  }

  /** A new-course request restores into the fresh course, as a new
      course, with the submitted course fields in the plan, and the course
      ends up with the submitted id number. */
  lemma ProceedNewCourse(st: Step<(Mode, Template)>, d: Submission, env: RequestEnv)
    requires Staged(st, 0, d, env)
    ensures var r := Proceed(st, 0, d, env);
      r.result.Success? ==>
        var c := r.result.value;
        && c.courseId == env.newCourseId
        && r.site.courses.Keys == st.site.courses.Keys + {c.courseId}
        && c.target == TargetNewCourse
        && c.tasks == SubstituteOverrides(env.plan, false, d)
        && c.written == env.restore(TargetNewCourse, c.tasks, NewCourseRecord(env.newCourseId, d))
        && r.site.courses[c.courseId].idnumber == d.idnumber
  {
    var r := Proceed(st, 0, d, env);
    if r.result.Success? {
      ProceedSucceeded(st, 0, d, env);
      var prep := Prepare(st, d, env);
      var p := prep.result.value;
      assert p.mode == NewCourse;
      var restored := Restore(prep.site, p, d, env);
      assert restored.site.courses.Keys == prep.site.courses.Keys;
    }
  }

  /** A new-course request restores into a course that did not exist. */
  lemma MaterializeNewCourse(s: Site, d: Submission, env: RequestEnv)
    requires TemplatesWellKeyed(s)
    requires env.newCourseId !in s.courses
    ensures var r := Materialize(s, 0, d, env);
      r.result.Success? ==>
        var c := r.result.value;
        && c.courseId == env.newCourseId && c.courseId !in s.courses
        && r.site.courses.Keys == s.courses.Keys + {c.courseId}
        && c.target == TargetNewCourse
        && c.tasks == SubstituteOverrides(env.plan, false, d)
        && c.written == env.restore(TargetNewCourse, c.tasks, NewCourseRecord(env.newCourseId, d))
        && r.site.courses[c.courseId].idnumber == d.idnumber
  {
    var st := Stage(s, 0, d, env);
    ProceedNewCourse(st, d, env);
  }

  /** An import restores into the named course, adding to it, with the
      plan exactly as the engine built it; no course is created and the
      course keeps the id number the restore wrote. */
  lemma ProceedImport(st: Step<(Mode, Template)>, courseId: int, d: Submission, env: RequestEnv)
    requires Staged(st, courseId, d, env)
    requires courseId != 0
    ensures var r := Proceed(st, courseId, d, env);
      r.result.Success? ==>
        var c := r.result.value;
        && c.courseId == courseId && c.courseId in st.site.courses
        && r.site.courses.Keys == st.site.courses.Keys
        && c.target == TargetExistingAdding
        && c.tasks == env.plan
        && c.written == env.restore(TargetExistingAdding, env.plan, st.site.courses[c.courseId])
        && r.site.courses[c.courseId].idnumber == c.written.course.idnumber
  {
    var r := Proceed(st, courseId, d, env);
    if r.result.Success? {
      ProceedSucceeded(st, courseId, d, env);
      var prep := Prepare(st, d, env);
      var p := prep.result.value;
      assert p.mode.Import?;
      var restored := Restore(prep.site, p, d, env);
      assert restored.site.courses.Keys == prep.site.courses.Keys;
    }
  }

  lemma MaterializeImport(s: Site, courseId: int, d: Submission, env: RequestEnv)
    requires TemplatesWellKeyed(s)
    requires courseId != 0
    ensures var r := Materialize(s, courseId, d, env);
      r.result.Success? ==>
        var c := r.result.value;
        && c.courseId == courseId && c.courseId in s.courses
        && r.site.courses.Keys == s.courses.Keys
        && c.target == TargetExistingAdding
        && c.tasks == env.plan
        && c.written == env.restore(TargetExistingAdding, env.plan, s.courses[c.courseId])
        && r.site.courses[c.courseId].idnumber == c.written.course.idnumber
  {
    var st := Stage(s, courseId, d, env);
    ProceedImport(st, courseId, d, env);
  }

  /** A non-empty submitted summary replaces the one the restore wrote.
      With the channel field submitted, the heading is the course's only
      custom-field row, whatever rows the restore copied; without it, the
      course keeps its rows followed by the restored ones. Other courses'
      rows are never touched. */
  lemma ProceedSummaryAndHeading(st: Step<(Mode, Template)>, courseId: int, d: Submission, env: RequestEnv)
    requires Staged(st, courseId, d, env)
    ensures var r := Proceed(st, courseId, d, env);
      r.result.Success? ==>
        var c := r.result.value.courseId;
        var w := r.result.value.written;
        && (d.summary.Some? && !PhpEmpty(d.summary.value) ==> r.site.courses[c].summary == d.summary.value)
        && (d.summary.None? || PhpEmpty(d.summary.value) ==> r.site.courses[c].summary == w.course.summary)
        && OtherRows(r.site.infoData, c) == OtherRows(st.site.infoData, c)
        && (d.setchannel ==> RowsOf(r.site.infoData, c) == [InfoRow(c, env.headingFieldId, d.heading)])
        && (!d.setchannel ==> r.site.infoData == st.site.infoData + CourseRows(c, w.customFields))
  {
    var r := Proceed(st, courseId, d, env);
    if r.result.Success? {
      ProceedSucceeded(st, courseId, d, env);
    }
  }

  lemma MaterializeSummaryAndHeading(s: Site, courseId: int, d: Submission, env: RequestEnv)
    requires TemplatesWellKeyed(s)
    ensures var r := Materialize(s, courseId, d, env);
      r.result.Success? ==>
        var c := r.result.value.courseId;
        var w := r.result.value.written;
        && (d.summary.Some? && !PhpEmpty(d.summary.value) ==> r.site.courses[c].summary == d.summary.value)
        && (d.summary.None? || PhpEmpty(d.summary.value) ==> r.site.courses[c].summary == w.course.summary)
        && OtherRows(r.site.infoData, c) == OtherRows(s.infoData, c)
        && (d.setchannel ==> RowsOf(r.site.infoData, c) == [InfoRow(c, env.headingFieldId, d.heading)])
        && (!d.setchannel ==> r.site.infoData == s.infoData + CourseRows(c, w.customFields))
  {
    var st := Stage(s, courseId, d, env);
    ProceedSummaryAndHeading(st, courseId, d, env);
  }

  /** After the request the target course has its own enrolment instances,
      then the ones the restore added, then a copy without `id` of each
      instance the template's course has at that point (which includes the
      restored ones when the template's course is the target). */
  lemma ProceedCopiesEnrolments(st: Step<(Mode, Template)>, courseId: int, d: Submission, env: RequestEnv)
    requires Staged(st, courseId, d, env)
    ensures var r := Proceed(st, courseId, d, env);
      r.result.Success? ==>
        var c := r.result.value.courseId;
        var from := st.result.value.1.course;
        var restored := EnrolmentsOf(st.site.enrolments, c) + r.result.value.written.enrolments;
        var copied := if from == c then restored else EnrolmentsOf(st.site.enrolments, from);
        r.site.enrolments[c] == restored + CopiedEnrolments(copied)
  {
    var r := Proceed(st, courseId, d, env);
    if r.result.Success? {
      ProceedSucceeded(st, courseId, d, env);
      var c := r.result.value.courseId;
      var restored := EnrolmentsOf(st.site.enrolments, c) + r.result.value.written.enrolments;
      var e := r.site.enrolments[c];
      assert e == e[..|restored|] + e[|restored|..];
    }
  }

  lemma MaterializeCopiesEnrolments(s: Site, courseId: int, d: Submission, env: RequestEnv)
    requires TemplatesWellKeyed(s)
    requires d.template in s.templates
    ensures var r := Materialize(s, courseId, d, env);
      r.result.Success? ==>
        var c := r.result.value.courseId;
        var from := s.templates[d.template].course;
        var restored := EnrolmentsOf(s.enrolments, c) + r.result.value.written.enrolments;
        var copied := if from == c then restored else EnrolmentsOf(s.enrolments, from);
        r.site.enrolments[c] == restored + CopiedEnrolments(copied)
  {
    var st := Stage(s, courseId, d, env);
    ProceedCopiesEnrolments(st, courseId, d, env);
  }

  /** The course record is created before the archive is extracted, so a
      failed extraction in new-course mode leaves the bare course behind;
      in import mode the courses are untouched. */
  lemma ExtractionFailureLeavesNewCourse(s: Site, courseId: int, d: Submission, env: RequestEnv)
    requires TemplatesWellKeyed(s)
    requires !env.extractOk
    ensures var r := Materialize(s, courseId, d, env);
      && r.result.Failure?
      && (r.result == Failure(ExtractFailed) && courseId == 0 ==>
            r.site.courses == s.courses[env.newCourseId := NewCourseRecord(env.newCourseId, d)])
      && (courseId != 0 ==> r.site.courses == s.courses)
  {
    var st := Stage(s, courseId, d, env);
    ProceedExtractionFailure(st, courseId, d, env);
    assert st.site.courses == s.courses;
  }

  /** After staging, a failed extraction ends the request with the site as
      preparation left it. */
  lemma ProceedExtractionFailure(st: Step<(Mode, Template)>, courseId: int, d: Submission, env: RequestEnv)
    requires Staged(st, courseId, d, env)
    requires !env.extractOk
    ensures var r := Proceed(st, courseId, d, env);
      && r.result.Failure?
      && (st.result.Success? && st.result.value.0 == NewCourse ==>
            r == Step(st.site.(courses := st.site.courses[env.newCourseId := NewCourseRecord(env.newCourseId, d)]),
                      Failure(ExtractFailed)))
      && (st.result.Failure? || st.result.value.0.Import? ==> r.site.courses == st.site.courses)
  {
    var prep := Prepare(st, d, env);
    assert Proceed(st, courseId, d, env) == Step(prep.site, Failure(prep.result.error));
  }
}

=== FILE: strings.dfy ===
/** String helpers the plugin relies on implicitly through PHP: decimal
    rendering of integers in string interpolation, `implode`, the `(int)`
    cast of a URL argument and `empty()` on strings. */
module Strings {

  predicate IsDigit(c: char) {
    '0' <= c <= '9'
  }

  predicate AllDigits(s: string) {
    forall i :: 0 <= i < |s| ==> IsDigit(s[i])
  }

  function DigitChar(d: nat): (c: char)
    requires d < 10
    ensures IsDigit(c)
  {
    ('0' as int + d) as char
  }

  function DigitValue(c: char): (d: nat)
    requires IsDigit(c)
    ensures d < 10
  {
    c as int - '0' as int
  }

  /** Decimal rendering of a natural number, as PHP interpolates an int. */
  function NatToString(n: nat): (s: string)
    ensures |s| >= 1
    ensures AllDigits(s)
    decreases n
  {
    if n < 10 then [DigitChar(n)] else NatToString(n / 10) + [DigitChar(n % 10)]
  }

  /** Value of a string of decimal digits; the empty string reads as 0. */
  function StringToNat(s: string): nat
    requires AllDigits(s)
    decreases |s|
  {
    if s == [] then 0 else 10 * StringToNat(s[..|s| - 1]) + DigitValue(s[|s| - 1])
  }

  lemma {:induction false} StringToNatOfNatToString(n: nat)
    ensures StringToNat(NatToString(n)) == n
    decreases n
  {
    var s := NatToString(n);
    if n < 10 {
      assert s[..|s| - 1] == [];
    } else {
      StringToNatOfNatToString(n / 10);
      assert s[..|s| - 1] == NatToString(n / 10);
    }
  }

  lemma NatToStringInjective(a: nat, b: nat)
    requires NatToString(a) == NatToString(b)
    ensures a == b
  {
    StringToNatOfNatToString(a);
    StringToNatOfNatToString(b);
  }

  /** A string of digits never contains a non-digit separator. */
  lemma DigitsExclude(s: string, c: char)
    requires AllDigits(s)
    requires !IsDigit(c)
    ensures c !in s
  {
  }

  /** PHP `empty()` applied to a string: true for "" and for "0". */
  predicate PhpEmpty(s: string) {
    s == "" || s == "0"
  }

  /** The longest prefix of `s` made of decimal digits. */
  function DigitPrefix(s: string): (p: string)
    ensures AllDigits(p)
    ensures |p| <= |s| && p == s[..|p|]
    ensures |p| == |s| || !IsDigit(s[|p|])
    decreases |s|
  {
    if s != [] && IsDigit(s[0]) then [s[0]] + DigitPrefix(s[1..]) else []
  }

  /** PHP's `(int)` cast of a string, restricted to unsigned decimal input:
      the value of the leading digits, 0 when there are none. */
  function IntCast(s: string): nat {
    StringToNat(DigitPrefix(s))
  }

  lemma IntCastOfNatToString(n: nat)
    ensures IntCast(NatToString(n)) == n
  {
    var s := NatToString(n);
    DigitPrefixOfDigits(s);
    StringToNatOfNatToString(n);
  }

  lemma {:induction false} DigitPrefixOfDigits(s: string)
    requires AllDigits(s)
    ensures DigitPrefix(s) == s
    decreases |s|
  {
    if s != [] {
      DigitPrefixOfDigits(s[1..]);
    }
  }

  /** PHP `implode(sep, parts)`. */
  function Join(parts: seq<string>, sep: char): string
    decreases |parts|
  {
    if |parts| == 0 then ""
    else if |parts| == 1 then parts[0]
    else parts[0] + [sep] + Join(parts[1..], sep)
  }

  /** PHP `explode(sep, s)`: the maximal separator-free pieces, in order. */
  function Split(s: string, sep: char): (parts: seq<string>)
    ensures |parts| >= 1
    decreases |s|
  {
    if s == [] then [""]
    else
      var rest := Split(s[1..], sep);
      if s[0] == sep then [""] + rest
      else [[s[0]] + rest[0]] + rest[1..]
  }

  lemma {:induction false} SplitNoSeparator(x: string, sep: char)
    requires sep !in x
    ensures Split(x, sep) == [x]
    decreases |x|
  {
    if x != [] {
      assert sep !in x[1..];
      SplitNoSeparator(x[1..], sep);
      assert [x[0]] + x[1..] == x;
    }
  }

  lemma {:induction false} SplitAfterPiece(x: string, y: string, sep: char)
    requires sep !in x
    ensures Split(x + [sep] + y, sep) == [x] + Split(y, sep)
    decreases |x|
  {
    var s := x + [sep] + y;
    if x == [] {
      assert s[1..] == y;
    } else {
      assert s[1..] == x[1..] + [sep] + y;
      assert sep !in x[1..];
      SplitAfterPiece(x[1..], y, sep);
      assert [x[0]] + x[1..] == x;
    }
  }

  ghost predicate NoPartContains(parts: seq<string>, sep: char) {
    forall k :: 0 <= k < |parts| ==> sep !in parts[k]
  }

  /** `explode` undoes `implode` when no piece contains the separator. */
  lemma {:induction false} SplitJoin(parts: seq<string>, sep: char)
    requires |parts| >= 1
    requires NoPartContains(parts, sep)
    ensures Split(Join(parts, sep), sep) == parts
    decreases |parts|
  {
    if |parts| == 1 {
      SplitNoSeparator(parts[0], sep);
    } else {
      assert sep !in parts[0];
      SplitJoin(parts[1..], sep);
      SplitAfterPiece(parts[0], Join(parts[1..], sep), sep);
      assert [parts[0]] + parts[1..] == parts;
    }
  }
}

=== FILE: tables.dfy ===
/** The tables of the host site that the course-template block reads and
    writes, as immutable maps keyed by row id. */
module Tables {
  import opened Strings

  /** A value held by a form field, a plan setting or a table column. */
  datatype Value = Int(i: int) | Text(s: string)

  /** A row of `block_course_template`. An empty (PHP-empty) filename means
      no archive has been built yet. */
  datatype Template = Template(
    id: nat,
    name: string,
    course: nat,
    filename: string,
    timecreated: nat)

  /** A row of `block_course_template_tag`. */
  datatype Tag = Tag(name: string)

  /** A row of `block_course_template_tag_instance`: links one tag to one template. */
  datatype TagInstance = TagInstance(tag: nat, template: nat)

  /** The columns of a `course` row that this block reads or patches. */
  datatype Course = Course(
    id: nat,
    category: nat,
    fullname: string,
    shortname: string,
    idnumber: string,
    summary: string,
    startdate: int)

  /** A stored file, located by the host file store's six address fields. */
  datatype StoredFile = StoredFile(
    contextId: nat,
    component: string,
    area: string,
    itemId: nat,
    filepath: string,
    filename: string,
    isDirectory: bool)

  /** A row of `course_info_data`: one custom-field value of one course. */
  datatype InfoRow = InfoRow(courseId: nat, fieldId: nat, data: string)

  /** An enrolment-method instance as the column map `enrol_get_instances`
      yields (it includes `id` and `enrol`). */
  type Fields = map<string, Value>

  datatype Site = Site(
    templates: map<nat, Template>,
    tags: map<nat, Tag>,
    instances: map<nat, TagInstance>,
    courses: map<nat, Course>,
    files: map<string, StoredFile>,
    enrolments: map<nat, seq<Fields>>,
    infoData: seq<InfoRow>)

  /** The pathname the host file store hashes to locate a file; files are
      kept keyed by this string, standing for its (injective) hash. */
  function StoredPath(f: StoredFile): string {
    "/" + NatToString(f.contextId) + "/" + f.component + "/" + f.area + "/"
      + NatToString(f.itemId) + f.filepath + f.filename
  }

  /** Files are keyed by their own pathname. */
  ghost predicate FilesWellKeyed(s: Site) {
    forall p :: p in s.files ==> StoredPath(s.files[p]) == p
  }

  /** Every template row sits under its own id. */
  ghost predicate TemplatesWellKeyed(s: Site) {
    forall k :: k in s.templates ==> s.templates[k].id == k
  }
}

=== FILE: tag_store.dfy ===
/** Deleting a template and its tag instances, with the clean-up of tags
    whose last instance goes (lib.php, `block_course_template_delete_template`
    and `block_course_template_delete_tag_instances`). */
module TagStore {
  import opened Tables

  /** Which of the host database's delete calls report failure. */
  datatype DbFaults = DbFaults(
    instanceDeleteFails: bool,
    tagDeleteFails: bool,
    templateDeleteFails: bool)

  /** A delete statement sent to the database, in the order it is sent. */
  datatype Write =
    | DeleteInstanceRows(instanceIds: set<nat>)
    | DeleteTagRows(tagIds: set<nat>)
    | DeleteTemplateRow(templateId: nat)

  /** What a call returns, the tables afterwards and the writes it attempted. */
  datatype Effect = Effect(ok: bool, site: Site, writes: seq<Write>)

  /** Every instance of tag `t`. */
  function InstancesOfTag(s: Site, t: nat): set<nat> {
    set i | i in s.instances && s.instances[i].tag == t
  }

  /** The instances of tag `t` among the ids passed for deletion. */
  function PassedInstancesOfTag(s: Site, ids: set<nat>, t: nat): set<nat> {
    set i | i in ids && i in s.instances && s.instances[i].tag == t
  }

  /** Tag `t` exists and one of the passed instances points at it. */
  predicate Linked(s: Site, ids: set<nat>, t: nat) {
    t in s.tags && PassedInstancesOfTag(s, ids, t) != {}
  }

  /** The rows of the grouped COUNT query. Its inner select yields one copy
      of a tag per passed instance of it, and the outer join pairs each copy
      with every instance of the tag, so a group counts the product. */
  function CountQuery(s: Site, ids: set<nat>): map<nat, nat> {
    map t | t in s.tags && PassedInstancesOfTag(s, ids, t) != {} ::
      |PassedInstancesOfTag(s, ids, t)| * |InstancesOfTag(s, t)|
  }

  /** The tags whose group counts exactly 1. */
  function TagsToDelete(s: Site, ids: set<nat>): set<nat> {
    var counts := CountQuery(s, ids);
    set t | t in counts && counts[t] == 1
  }

  lemma SubsetCard(a: set<nat>, b: set<nat>)
    requires a <= b
    ensures |a| <= |b|
  {
    assert b == a + (b - a);
  }

  lemma AtMostOne(a: set<nat>)
    requires forall p, q :: p in a && q in a ==> p == q
    ensures |a| <= 1
  {
    if a != {} {
      var p :| p in a;
      assert a == {p};
    }
  }

  /** A group counts 1 exactly when the tag has one instance in all: the
      COUNT is the tag's total, not what remains after the deletion. */
  lemma TagsToDeleteMeaning(s: Site, ids: set<nat>, t: nat)
    ensures t in TagsToDelete(s, ids) <==> Linked(s, ids, t) && |InstancesOfTag(s, t)| == 1
  {
    var p := PassedInstancesOfTag(s, ids, t);
    var a := InstancesOfTag(s, t);
    SubsetCard(p, a);
    if Linked(s, ids, t) && |a| == 1 {
      assert |p| >= 1;
    }
    if t in TagsToDelete(s, ids) {
      assert t in CountQuery(s, ids);
      assert |p| * |a| == 1;
      assert |p| >= 1;
    }
  }

  /** `block_course_template_delete_tag_instances`: deletes the passed
      instances, then the tags whose COUNT row was 1. */
  function DeleteTagInstances(s: Site, ids: set<nat>, faults: DbFaults): (r: Effect)
    requires ids != {}
    ensures r.site == s.(instances := r.site.instances, tags := r.site.tags)
    ensures faults.instanceDeleteFails ==>
      !r.ok && r.site == s && r.writes == [DeleteInstanceRows(ids)]
    ensures !faults.instanceDeleteFails ==>
      forall i :: i in r.site.instances <==> i in s.instances && i !in ids
    ensures forall i :: i in r.site.instances ==> i in s.instances && r.site.instances[i] == s.instances[i]
    ensures forall t :: t in r.site.tags ==> t in s.tags && r.site.tags[t] == s.tags[t]
    ensures forall t :: t in s.tags && t !in r.site.tags ==>
      Linked(s, ids, t) && |InstancesOfTag(s, t)| == 1
    ensures forall t :: t in s.tags && !Linked(s, ids, t) ==> t in r.site.tags
    ensures r.ok ==> forall t :: t in s.tags ==>
      (t in r.site.tags <==> !(Linked(s, ids, t) && |InstancesOfTag(s, t)| == 1))
    ensures r.ok <==> !faults.instanceDeleteFails && (TagsToDelete(s, ids) == {} || !faults.tagDeleteFails)
  {
    var doomed := TagsToDelete(s, ids);
    assert forall t :: t in doomed <==> Linked(s, ids, t) && |InstancesOfTag(s, t)| == 1 by {
      forall t ensures t in doomed <==> Linked(s, ids, t) && |InstancesOfTag(s, t)| == 1 {
        TagsToDeleteMeaning(s, ids, t);
      }
    }
    if faults.instanceDeleteFails then
      Effect(false, s, [DeleteInstanceRows(ids)])
    else
      var s1 := s.(instances := s.instances - ids);
      if doomed == {} then
        Effect(true, s1, [DeleteInstanceRows(ids)])
      else if faults.tagDeleteFails then
        Effect(false, s1, [DeleteInstanceRows(ids), DeleteTagRows(doomed)])
      else
        Effect(true, s1.(tags := s1.tags - doomed), [DeleteInstanceRows(ids), DeleteTagRows(doomed)])
  }

  /** A tag with two or more instances survives the call even when every one
      of them is among the deleted ids: it is left with no instance. */
  lemma TagWithSeveralInstancesSurvives(s: Site, ids: set<nat>, faults: DbFaults, t: nat)
    requires ids != {}
    requires t in s.tags
    requires |InstancesOfTag(s, t)| >= 2
    requires InstancesOfTag(s, t) <= ids
    requires !faults.instanceDeleteFails
    ensures var r := DeleteTagInstances(s, ids, faults);
      t in r.site.tags && InstancesOfTag(r.site, t) == {}
  {
    var r := DeleteTagInstances(s, ids, faults);
    forall i | i in r.site.instances
      ensures r.site.instances[i].tag != t
    {
    }
  }

  /** A concrete instance of the above: one tag, two instances, both deleted. */
  lemma OrphanTagExample()
    ensures var s := Site(map[], map[7 := Tag("maths")],
                          map[1 := TagInstance(7, 3), 2 := TagInstance(7, 3)],
                          map[], map[], map[], []);
            var r := DeleteTagInstances(s, {1, 2}, DbFaults(false, false, false));
            r.ok && 7 in r.site.tags && InstancesOfTag(r.site, 7) == {}
  {
    var s := Site(map[], map[7 := Tag("maths")],
                  map[1 := TagInstance(7, 3), 2 := TagInstance(7, 3)],
                  map[], map[], map[], []);
    assert InstancesOfTag(s, 7) == {1, 2};
    TagWithSeveralInstancesSurvives(s, {1, 2}, DbFaults(false, false, false), 7);
  }

  /** Every tag has at least one instance. */
  ghost predicate NoOrphanTags(s: Site) {
    forall t :: t in s.tags ==> InstancesOfTag(s, t) != {}
  }

  /** No tag is attached twice to the same template. */
  ghost predicate TagLinkedOncePerTemplate(s: Site) {
    forall i, j :: i in s.instances && j in s.instances && i != j
      && s.instances[i].template == s.instances[j].template
      ==> s.instances[i].tag != s.instances[j].tag
  }

  /** When no tag has two of its instances among the deleted ids, the
      count-equals-one rule removes exactly the tags that lose their last
      instance, so no tag is left without instances. */
  lemma DeleteTagInstancesKeepsNoOrphans(s: Site, ids: set<nat>, faults: DbFaults)
    requires ids != {}
    requires NoOrphanTags(s)
    requires forall t :: |PassedInstancesOfTag(s, ids, t)| <= 1
    requires !faults.tagDeleteFails
    ensures NoOrphanTags(DeleteTagInstances(s, ids, faults).site)
  {
    var r := DeleteTagInstances(s, ids, faults);
    if !faults.instanceDeleteFails {
      forall t | t in r.site.tags
        ensures InstancesOfTag(r.site, t) != {}
      {
        var all := InstancesOfTag(s, t);
        var passed := PassedInstancesOfTag(s, ids, t);
        assert all != {};
        if passed == {} {
          var i :| i in all;
          assert i !in passed;
          assert i in InstancesOfTag(r.site, t);
        } else {
          assert Linked(s, ids, t);
          assert |all| != 1;
          var p :| p in passed;
          assert passed == {p} by {
            forall q | q in passed ensures q == p {
              if q != p {
                assert {p, q} <= passed;
                SubsetCard({p, q}, passed);
              }
            }
          }
          assert p in all;
          assert all != {p};
          var i :| i in all && i != p;
          assert i !in passed;
          assert i in InstancesOfTag(r.site, t);
        }
      }
    }
  }

  /** The tag instances of one template. */
  function TemplateInstances(s: Site, templateId: nat): set<nat> {
    set i | i in s.instances && s.instances[i].template == templateId
  }

  /** The template-row delete, sent after the writes in `prior`. */
  function RemoveTemplateRow(s: Site, templateId: nat, faults: DbFaults, prior: seq<Write>): (r: Effect)
    ensures r.writes == prior + [DeleteTemplateRow(templateId)]
    ensures r.ok <==> !faults.templateDeleteFails
    ensures r.site == s.(templates := r.site.templates)
    ensures r.ok ==> r.site.templates == s.templates - {templateId}
    ensures !r.ok ==> r.site.templates == s.templates
  {
    if faults.templateDeleteFails then Effect(false, s, prior + [DeleteTemplateRow(templateId)])
    else Effect(true, s.(templates := s.templates - {templateId}), prior + [DeleteTemplateRow(templateId)])
  }

  /** Whether the instance clean-up of `DeleteTagInstances` reports
      success for the given ids. */
  predicate CleanupSucceeds(s: Site, ids: set<nat>, faults: DbFaults) {
    !faults.instanceDeleteFails && (TagsToDelete(s, ids) == {} || !faults.tagDeleteFails)
  }

  /** `block_course_template_delete_template`: instance clean-up (only when
      the template has instances), then the template row; a failed step
      stops the request. */
  function DeleteTemplate(s: Site, templateId: nat, faults: DbFaults): (r: Effect)
    ensures var ids := TemplateInstances(s, templateId);
      && (ids == {} ==> r.writes == [DeleteTemplateRow(templateId)])
      && (ids != {} ==> |r.writes| >= 1 && r.writes[0] == DeleteInstanceRows(ids))
      && (DeleteTemplateRow(templateId) in r.writes <==> ids == {} || CleanupSucceeds(s, ids, faults))
      && (r.ok <==> (ids == {} || CleanupSucceeds(s, ids, faults)) && !faults.templateDeleteFails)
    ensures forall k :: 0 <= k < |r.writes| && r.writes[k].DeleteTemplateRow? ==> k == |r.writes| - 1
    ensures forall t :: t != templateId ==>
      (t in r.site.templates <==> t in s.templates)
      && (t in s.templates ==> r.site.templates[t] == s.templates[t])
    ensures r.ok ==> templateId !in r.site.templates
    ensures !r.ok ==> r.site.templates == s.templates
    ensures r.site == s.(templates := r.site.templates, instances := r.site.instances, tags := r.site.tags)
    ensures r.site.courses == s.courses && r.site.files == s.files
    ensures var ids := TemplateInstances(s, templateId);
      ids != {} && !CleanupSucceeds(s, ids, faults) ==> r == DeleteTagInstances(s, ids, faults)
    ensures forall i :: i in r.site.instances ==> i in s.instances && r.site.instances[i] == s.instances[i]
    ensures DeleteTemplateRow(templateId) in r.writes ==>
      forall i :: i in r.site.instances <==> i in s.instances && s.instances[i].template != templateId
    ensures forall t :: t in r.site.tags ==> t in s.tags && r.site.tags[t] == s.tags[t]
    ensures var ids := TemplateInstances(s, templateId);
      forall t :: t in s.tags && t !in r.site.tags ==> Linked(s, ids, t) && |InstancesOfTag(s, t)| == 1
    ensures var ids := TemplateInstances(s, templateId);
      DeleteTemplateRow(templateId) in r.writes ==> forall t :: t in s.tags ==>
        (t in r.site.tags <==> !(Linked(s, ids, t) && |InstancesOfTag(s, t)| == 1))
  {
    var ids := TemplateInstances(s, templateId);
    assert forall i :: i in s.instances && s.instances[i].template == templateId ==> i in ids;
    if ids == {} then
      assert forall t :: !Linked(s, ids, t);
      RemoveTemplateRow(s, templateId, faults, [])
    else
      var e := DeleteTagInstances(s, ids, faults);
      assert e.ok <==> CleanupSucceeds(s, ids, faults);
      if !e.ok then
        assert DeleteTemplateRow(templateId) !in e.writes;
        e
      else RemoveTemplateRow(e.site, templateId, faults, e.writes)
  }

  /** Deleting a template never leaves a tag without instances, provided no
      tag is attached twice to one template and the tag delete succeeds. */
  lemma DeleteTemplateKeepsNoOrphans(s: Site, templateId: nat, faults: DbFaults)
    requires NoOrphanTags(s)
    requires TagLinkedOncePerTemplate(s)
    requires !faults.tagDeleteFails
    ensures NoOrphanTags(DeleteTemplate(s, templateId, faults).site)
  {
    var ids := TemplateInstances(s, templateId);
    if ids != {} {
      forall t ensures |PassedInstancesOfTag(s, ids, t)| <= 1 {
        var passed := PassedInstancesOfTag(s, ids, t);
        forall p, q | p in passed && q in passed ensures p == q {
        }
        AtMostOne(passed);
      }
      DeleteTagInstancesKeepsNoOrphans(s, ids, faults);
    }
  }
}

=== FILE: wrappers.dfy ===
/** Optional values and success-or-error results, used where the plugin
    returns `false` or stops the request with an error. */
module Wrappers {

  datatype Option<+T> = None | Some(value: T)

  datatype Result<+T, +E> = Success(value: T) | Failure(error: E)
}
